=== FILE: README.md ===
# Products import, modelled in Dafny

The `products:import` console command reads a spreadsheet of products. Each data row becomes a validated product record, which is then created or updated in the object store.

This project models the core of that command:

- the column table that maps each of the ten columns to its validator;
- the ten validators;
- the row loop of `execute`:
  - the header check on row 0;
  - the cell loop with its "too many" and "not enough" cell counts;
  - wrapping a validator's error with its row and cell;
  - stopping at the first error;
- `importProduct`, the find-or-create by SKU that overwrites every field, publishes the product and saves it.

Everything outside the command enters as a parameter. The product store is a value of type `Entities.Store`, a map from SKU to product that the run passes from row to row. The rest is a value of type `Entities.Env`:

- reference-data catalogues keyed by name, path or abbreviation;
- PHP's numeric-string reading;
- the decoding of the attributes cell;
- the object-key sanitiser;
- whether a save is accepted.

Modules, in dependency order:

| file | module | contents |
|---|---|---|
| wrappers.dfy | `Wrappers` | `Option` and `Result`, with `MapValue` to pass a success value through a constructor |
| php.dfy | `PhpSemantics` | PHP truthiness of a cell; `explode(",")` and its inverse `implode` |
| entities.dfy | `Entities` | ids, quantities, records, products, the product store, reference data, errors, `Env` |
| validators.dfy | `Validators` | the nine validators other than attributes, and the SKU pattern scan |
| attributes.dfy | `AttributeResolver` | the attributes validator: group, key and unit resolution into a classification store |
| upsert.dfy | `ProductUpsert` | `importProduct` |
| import.dfy | `ProductsImport` | the column table, the row processor and the run over all rows as a fold |
| run_properties.dfy | `RunProperties` | properties of a whole run: order, halting, no rollback, what the store ends up holding |
| execute.dfy | `ImportCommand` | `execute` written as the nested row and cell loops, proved equal to the fold |
| examples_lemmas.dfy | `ImportExamples` | concrete cases: SKU formats, falsy `"0"`, header order, cell counts, category lookup |

Behaviour of the command worth noting:

- There are ten columns, `attributes` included.
- Row 0 has only its first cell compared with `name`. The loop then moves straight on to the next row, so a header whose other cells are wrong, missing or extra is accepted. An empty row 0 never enters the cell loop, so it is reported as "not enough values in row 0".
- The SKU pattern `PROD-\d{3,4}` is not anchored. A cell passes as soon as `PROD-` followed by three digits occurs anywhere in it, so `XPROD-12345-Y` is accepted.
- An image path that does not resolve gives no image and no error.
- A product is looked up by SKU across the whole store, not only in the product folder (id 51). Only a newly created product is placed in that folder. A product found elsewhere keeps its key and parent.
- Each cell is counted and checked against the column count before it is validated. The cells before it have already been validated by then. So an eleventh cell is reported as "too many values" only when the first ten cells are valid. Otherwise the first invalid cell is reported.
- `"0"` is falsy in PHP. A required column rejects it as missing. Price, stock, image and attributes read it as "no value".
- Stock is cast with `(int)`, which truncates toward zero. For the non-negative values that reach the cast, this is the floor.
- A save failure halts the run. Products saved by earlier rows stay saved.

## Model

| member | source | states |
|---|---|---|
| PhpSemantics.Explode | src/Command/ProductsImport.php:274 | splitting a categories cell on commas yields at least one piece, and no piece contains a comma |
| PhpSemantics.ImplodeExplode | src/Command/ProductsImport.php:274 | splitting a categories cell on commas loses nothing: joining the pieces back with commas gives the cell |
| PhpSemantics.ExplodeImplode | src/Command/ProductsImport.php:274 | comma-free names joined with commas split back into exactly those names, so pieces are never trimmed or merged |
| Validators.ValidateName | src/Command/ProductsImport.php:218-225 | succeeds iff the cell is truthy, i.e. not null, `""` or `"0"`; then returns the cell unchanged; otherwise fails with "name is required" |
| Validators.ValidateDescription | src/Command/ProductsImport.php:235-242 | succeeds iff the cell is truthy and returns it unchanged; otherwise fails with "description is required" |
| Validators.ValidateImage | src/Command/ProductsImport.php:250-257 | never fails; yields an image iff the cell is truthy and names a known path, and then it is that path's image |
| Validators.ResolveCategories | src/Command/ProductsImport.php:273-282 | succeeds iff every name is a known category; the ids keep the names' order and count, duplicates included; on failure the error names the first unknown name, every earlier name being known |
| Validators.ValidateCategories | src/Command/ProductsImport.php:267-283 | a falsy cell is "categories required"; otherwise succeeds iff every comma-separated piece is a known category, yielding one id per piece in order; otherwise the error names the first unknown piece |
| Validators.ValidateBrand | src/Command/ProductsImport.php:293-305 | a falsy cell is "brand required"; an unknown name is "invalid brand" naming it; succeeds iff the name is known, with that brand's id |
| Validators.FindSkuPattern | src/Command/ProductsImport.php:322 | finds the leftmost position where `PROD-` and three digits occur, or reports that there is none |
| Validators.ValidateSku | src/Command/ProductsImport.php:315-327 | a falsy cell is "SKU required"; otherwise succeeds iff `PROD-` followed by three digits occurs anywhere in the cell, returning the cell unchanged; otherwise "invalid SKU format" |
| Validators.ValidatePrice | src/Command/ProductsImport.php:337-348 | a falsy cell is no price; otherwise succeeds iff the cell is numeric and not negative, yielding that number; otherwise "invalid price" |
| Validators.ValidateStock | src/Command/ProductsImport.php:358-369 | a falsy cell is no stock; otherwise succeeds iff the cell is numeric and not negative, yielding the non-negative integer n with n <= value < n + 1; otherwise "invalid stock" |
| Validators.ValidateStatus | src/Command/ProductsImport.php:379-392 | a falsy cell is "status required"; succeeds iff the cell is exactly `active` or `inactive`, returning it; otherwise "invalid status" naming the value |
| AttributeResolver.FirstFailure | src/Command/ProductsImport.php:419-434 | in a sequence of group, key and unit lookups, reports nothing iff all resolve, else the error of the first one that does not |
| AttributeResolver.FirstFailureAppend | src/Command/ProductsImport.php:419-442 | the first failing lookup of two lookup sequences run one after the other is the first sequence's, if it has one, else the second's |
| AttributeResolver.ResolveKeys | src/Command/ProductsImport.php:425-441 | resolving one group's entries fails iff some key-then-unit lookup fails, with the error of the first failing lookup; on success every entry's slot is in the store, no slot is removed, and every slot either keeps its old quantity or holds the quantity of an entry that writes it |
| AttributeResolver.ResolveGroups | src/Command/ProductsImport.php:419-442 | resolving the payload fails iff some lookup in the order group, then its keys each before its unit, fails, with the first failing lookup's error; on success every entry of every group has its slot in the store and every new slot holds the quantity of an entry that writes it |
| AttributeResolver.ValidateAttributes | src/Command/ProductsImport.php:402-445 | a falsy cell is no attributes; a cell that does not decode, or decodes to nothing, is "invalid format"; otherwise fails iff some name fails to resolve, with the first such error; on success the store holds a slot for every entry and nothing not written by an entry |
| ProductUpsert.Prepared | src/Command/ProductsImport.php:181-198 | the product about to be saved is published and holds exactly the row's values; it keeps the key and parent of the product stored under the SKU, or is new with the sanitised SKU as key and folder 51 as parent |
| ProductUpsert.ImportProduct | src/Command/ProductsImport.php:179-207 | fails iff the save is refused, with an error naming the SKU; on success the store gains the SKU (one product per SKU, no duplicates), the product holds the row's values and is published, and every other product is unchanged |
| ProductUpsert.ReimportIsIdempotent | src/Command/ProductsImport.php:181-201 | importing the same record a second time finds the product saved by the first import and leaves the store as it was |
| ProductsImport.Validate | src/Command/ProductsImport.php:59-70 | each column's validator yields a value of the shape that column's record field holds |
| ProductsImport.ColumnTable | src/Command/ProductsImport.php:59-70 | the table sends each column to its own rule, with that rule's error. Name, description, SKU and status accept exactly the truthy cells, the truthy cells containing `PROD-ddd`, and `active`/`inactive` respectively; each yields the cell. A falsy cell in these columns is the column's "required" error; otherwise the errors are invalid SKU format and invalid status naming the value. Image resolves the path and never fails. Categories accepts exactly the cells whose pieces are all known and yields their ids, with the categories validator's error. Brand accepts exactly a known name and yields its id; otherwise the error is "brand required" or "invalid brand" naming it. Price and stock accept a falsy cell or a non-negative number, yielding the number or its floor, otherwise "invalid price" or "invalid stock". Attributes accept a falsy cell or a payload whose every name resolves, passing on the attributes validator's store or error |
| ProductsImport.FalsyCell | src/Command/ProductsImport.php:218-404 | a falsy cell is rejected by exactly the six required columns: name, description, categories, brand, sku and status; the other four read it as "no value" |
| ProductsImport.AttributesColumn | src/Command/ProductsImport.php:145 | the attributes column succeeds exactly when the attributes validator does, and passes on its store, which is absent exactly for a falsy cell |
| ProductsImport.ToRecord | src/Command/ProductsImport.php:145 | the record built from a row's validated values holds, in each column's field, that column's value |
| ProductsImport.ValidateCells | src/Command/ProductsImport.php:124-151 | validating a data row's cells succeeds iff there are at most ten and each passes its column's validator, yielding those values in order; otherwise one of two errors. "Too many values" comes when an eleventh cell is reached after ten valid ones. Otherwise the error names the first invalid cell and its validator's error, every earlier cell being valid |
| ProductsImport.ProcessRow | src/Command/ProductsImport.php:124-155 | row 0 passes iff its first cell is `name`. It is "not enough values" when empty and "header mismatch at cell 0" otherwise. A data row yields a record iff it has exactly ten cells that all validate, each field then being its cell's validated value. Otherwise the error is too many values, not enough values (all cells valid) or the first invalid cell |
| ProductsImport.DataRowText | src/Command/ProductsImport.php:144-157 | a data row of ten cells that pass their validators is accepted; by ProcessRow these are exactly the accepted data rows. Its record holds the name, description, SKU and status cells unchanged, all present. The SKU contains `PROD-ddd` and the status is `active` or `inactive` |
| ProductsImport.DataRowLookups | src/Command/ProductsImport.php:144-157 | such a row's record holds the resolved image, or none for a falsy cell or an unknown path. It holds the categories validator's ids for the categories cell, every piece of which is a known category, and the id of the known brand named by the brand cell |
| ProductsImport.DataRowNumbers | src/Command/ProductsImport.php:144-157 | such a row's record holds the price as read, or none for a falsy cell, and has a stock exactly when the stock cell is truthy; that stock is the non-negative whole part of the number read |
| ProductsImport.DataRowAttributes | src/Command/ProductsImport.php:144-198 | such a row's record holds exactly the store the attributes validator resolved from the attributes cell, and that store is absent exactly when the cell is falsy; this is what `importProduct` then sets on the product |
| ProductsImport.StepOutcome | src/Command/ProductsImport.php:124-157 | the header row succeeds iff its first cell is `name`, and then leaves the store unchanged; a row error is the step's error; a data row succeeds iff it yields a record and the save of its prepared product is accepted, and then the store gains exactly that SKU, holding the record, published; a refused save is an error naming the SKU |
| ProductsImport.RunFrom | src/Command/ProductsImport.php:118-158 | a run that halts names a row of the sheet |
| RunProperties.RunFromSplit | src/Command/ProductsImport.php:118-158 | running a sheet equals running its first n rows and then, unless halted, the rest from that store; rows are processed strictly in order |
| RunProperties.AbortedAtFailingRow | src/Command/ProductsImport.php:118-166 | a halted run stopped at a row whose own step failed with the reported error, and the reported store is what the rows before it produced |
| RunProperties.ImportAbortsAtFirstError | src/Command/ProductsImport.php:112-167 | when the import fails, every row before the failing one was processed and saved, so nothing is rolled back, and the failing row's own step produced the error |
| RunProperties.LaterRowsIgnored | src/Command/ProductsImport.php:118-166 | after a failure no later row is read: appending rows to a failing sheet changes nothing |
| RunProperties.DoneProcessedEveryRow | src/Command/ProductsImport.php:118-160 | a successful import processed every row: each row's step succeeded on the store left by the rows before it |
| RunProperties.StepEffect | src/Command/ProductsImport.php:153-157 | a successful header step changes nothing; a successful data-row step had exactly ten cells and writes exactly the product named by the SKU cell, published and holding the row's record, leaving every other product as it was |
| RunProperties.ImportStepConfined | src/Command/ProductsImport.php:153-157 | every successful step of the import writes at most the product of its row's SKU |
| RunProperties.RunFromKeepsKeys | src/Command/ProductsImport.php:118-158 | no run removes a product |
| RunProperties.RunFromAddsOnlySheetSkus | src/Command/ProductsImport.php:118-158 | a run only adds products whose SKU appears in a data row |
| RunProperties.RunFromLeavesOthers | src/Command/ProductsImport.php:118-158 | a run leaves every product whose SKU is not in the sheet untouched |
| RunProperties.RunFromCoversSheetSkus | src/Command/ProductsImport.php:118-158 | a completed run holds a product for every SKU of the sheet's data rows |
| RunProperties.RunFromWellKeyed | src/Command/ProductsImport.php:118-158 | every product stays filed under its own SKU throughout a run |
| RunProperties.ImportStoreEffect | src/Command/ProductsImport.php:112-167 | halted or not, the import deletes nothing, adds only SKUs from the sheet, leaves other products untouched and keeps products filed under their SKU; on success the store's SKUs are exactly the old ones plus the sheet's, one product per distinct SKU |
| RunProperties.LastWriteKept | src/Command/ProductsImport.php:118-158 | after a completed run, the product written by a data row survives unchanged when no later row carries its SKU |
| RunProperties.LastRowWins | src/Command/ProductsImport.php:181-198 | after a successful import, the product of a SKU is published and holds the values of the last row with that SKU: a repeated SKU updates one product in place |
| ImportCommand.ReadRow | src/Command/ProductsImport.php:120-155 | the cell loop, counting cells as it goes and leaving the header after its first cell, computes exactly what the row processor specifies |
| ImportCommand.ImportRow | src/Command/ProductsImport.php:119-157 | one pass of the row loop, reading the row and then upserting a data row's product, has exactly the outcome of the import step for that row |
| ImportCommand.Execute | src/Command/ProductsImport.php:106-168 | the nested row and cell loops compute exactly the run over all rows, returning SUCCESS iff every row was processed and FAILURE iff the run halted |
| ImportExamples.SkuFormatCases | src/Command/ProductsImport.php:315-327 | `PROD-12` and `PRD-123` are invalid; `PROD-123`, `PROD-1234` and `XPROD-12345-Y` are accepted unchanged; `"0"` is a missing SKU |
| ImportExamples.ZeroIsFalsy | src/Command/ProductsImport.php:218-392 | `"0"` is a missing name or status and no price or stock, whereas `"0.0"` is a price of zero |
| ImportExamples.NumberCases | src/Command/ProductsImport.php:343-368 | negative and non-numeric prices and stocks are errors, and stock 2.9 is imported as 2 |
| ImportExamples.UnknownCategoryFirst | src/Command/ProductsImport.php:274-278 | with `Shoes` known and `Bags` unknown, `Bags,Shoes` is rejected naming `Bags` |
| ImportExamples.UnknownCategoryLater | src/Command/ProductsImport.php:274-278 | with `Shoes` known and `Bags` unknown, `Shoes,Bags` is rejected naming `Bags` |
| ImportExamples.CategoriesNotTrimmed | src/Command/ProductsImport.php:274-278 | in `Shoes, Shoes` the second piece is ` Shoes` with its space, and is looked up that way |
| ImportExamples.RepeatedCategoryKept | src/Command/ProductsImport.php:269-282 | `Shoes,Shoes` yields the Shoes id twice; an empty cell is "categories required" |
| ImportExamples.HeaderCases | src/Command/ProductsImport.php:135-141 | a header starting `sku, name` fails at cell 0 expecting `name`; a header with `name` first is skipped whatever follows; an empty header row is "not enough values in row 0" |
| ImportExamples.CellCountCases | src/Command/ProductsImport.php:124-155 | with valid cells, ten cells import, nine are "not enough values" and eleven are "too many values" for that row |

## Left out

- Loading the spreadsheet file, the cell reader's value typing, and logging the error. A row is modelled as its sequence of cells, each a string or empty. The logged message is modelled as the `ImportError` value, without its text.
- The object store's persistence. Products are modelled as `Entities.Store`, a map from SKU to product. A `save` is a caller-given predicate `Env.saves`.
- The asset, category, brand and unit repositories and the classification-store configuration. They are modelled as maps in `Entities.ReferenceData`.
- The object-key sanitiser is a caller-given function `Env.validKey`.
- `is_numeric` and PHP's string-to-number conversion are a caller-given function `Env.numeric`. Numbers are exact reals, not floating point. The 64-bit range of the `(int)` stock cast is not modelled.
- `json_decode(stripcslashes(...))` is a caller-given function `Env.decode`. It yields the groups and their key entries in document order. It yields `None` when the result is null or another falsy scalar, and no groups for an empty array; the attributes validator rejects both, as PHP's falsy check does. JSON that decodes to a truthy value of another shape is not modelled: a scalar, a group that is not an object, or an entry without `value` or `unit`.
- Loading the store configuration named "ProductAttributes" is modelled as a fixed id. The crash when that configuration does not exist is not modelled.
- A stored product is modelled by its complete field values. Products stored with empty fields are not represented, since an import overwrites every field anyway.
- The Classificationstore object's owner and field name are not modelled. Only its group/key slots and their quantities are.
- AttributeResolver.ValidateAttributes: when two entries of the payload write the same slot, the contract says the slot holds the quantity of one of them, not that the later one wins. This arises when two distinct names resolve to the same group or key id, for example names that differ only in case; the source keeps the later write.
- AttributeResolver.ResolveKeys: when two entries of a group write the same slot, or an entry writes a slot already in the starting store, the contract says the slot holds the quantity of one of the writers (or its old quantity), not that the latest write wins. The resolver itself keeps the latest write, as the classification store does.
- AttributeResolver.ResolveGroups: the same, for two entries anywhere in the payload that write the same slot, or an entry that writes a slot already in the starting store.
- The web controllers and page bricks of the repository are not part of this model.

=== FILE: attributes.dfy ===
/** The attributes column: a decoded `group => key => {value, unit}` payload
    is resolved name by name against the attribute store "ProductAttributes"
    and the unit catalogue into a classification store. The first name that
    does not resolve stops the resolution. */
module AttributeResolver {
  import opened Wrappers
  import opened PhpSemantics
  import opened Entities

  predicate GroupKnown(refs: ReferenceData, group: string) {
    (refs.attributeStore, group) in refs.groups
  }

  predicate KeyKnown(refs: ReferenceData, key: string) {
    (refs.attributeStore, key) in refs.keys
  }

  predicate EntryResolves(refs: ReferenceData, e: KeyEntry) {
    KeyKnown(refs, e.key) && e.unit in refs.units
  }

  /** The classification-store slot an entry of group `group` is written to. */
  function SlotOf(refs: ReferenceData, group: string, e: KeyEntry): (Id, Id)
    requires GroupKnown(refs, group) && KeyKnown(refs, e.key)
  {
    (refs.groups[(refs.attributeStore, group)], refs.keys[(refs.attributeStore, e.key)])
  }

  /** The quantity an entry stores: its number with the resolved unit. */
  function QuantityOf(refs: ReferenceData, e: KeyEntry): Quantity
    requires e.unit in refs.units
  {
    Quantity(e.value, refs.units[e.unit])
  }

  // ---------------------------------------------------------------------
  // Reference order of the lookups, independent of the resolver itself.
  // ---------------------------------------------------------------------

  /** One name lookup the resolver performs. */
  datatype Lookup = GroupLookup(group: string) | KeyLookup(key: string) | UnitLookup(unit: string)

  predicate Resolves(refs: ReferenceData, l: Lookup) {
    match l
    case GroupLookup(g) => GroupKnown(refs, g)
    case KeyLookup(k) => KeyKnown(refs, k)
    case UnitLookup(u) => u in refs.units
  }

  /** The error reported when lookup `l` does not resolve. */
  function LookupError(l: Lookup): FieldError {
    match l
    case GroupLookup(g) => InvalidGroup(g)
    case KeyLookup(k) => InvalidKey(k)
    case UnitLookup(u) => InvalidUnit(u)
  }

  /** Within a group, each key is looked up just before its unit. */
  function KeyLookups(entries: seq<KeyEntry>): seq<Lookup> {
    if |entries| == 0 then []
    else [KeyLookup(entries[0].key), UnitLookup(entries[0].unit)] + KeyLookups(entries[1..])
  }

  /** Each group is looked up before any of its keys; groups in document order. */
  function Lookups(groups: seq<GroupEntry>): seq<Lookup> {
    if |groups| == 0 then []
    else [GroupLookup(groups[0].group)] + KeyLookups(groups[0].entries) + Lookups(groups[1..])
  }

  /** The error of the first lookup in `ls` that does not resolve, if any. */
  function FirstFailure(refs: ReferenceData, ls: seq<Lookup>): (r: Option<FieldError>)
    ensures r.None? <==> forall i :: 0 <= i < |ls| ==> Resolves(refs, ls[i])
    ensures r.Some? ==>
      exists j :: 0 <= j < |ls| && !Resolves(refs, ls[j]) && r.value == LookupError(ls[j]) &&
        forall k :: 0 <= k < j ==> Resolves(refs, ls[k])
  {
    if |ls| == 0 then None
    else if !Resolves(refs, ls[0]) then Some(LookupError(ls[0]))
    else
      var r := FirstFailure(refs, ls[1..]);
      assert forall i :: 1 <= i < |ls| ==> ls[i] == ls[1..][i - 1];
      r
  }

  lemma {:induction false} FirstFailureAppend(refs: ReferenceData, a: seq<Lookup>, b: seq<Lookup>)
    ensures FirstFailure(refs, a + b) ==
      if FirstFailure(refs, a).Some? then FirstFailure(refs, a) else FirstFailure(refs, b)
  {
    if |a| > 0 {
      assert (a + b)[0] == a[0];
      assert (a + b)[1..] == a[1..] + b;
      FirstFailureAppend(refs, a[1..], b);
    } else {
      assert a + b == b;
    }
  }

  // ---------------------------------------------------------------------
  // What a successful resolution writes.
  // ---------------------------------------------------------------------

  /** Every entry of the group resolved and has its slot in `store`. */
  ghost predicate EntriesWritten(refs: ReferenceData, group: string, entries: seq<KeyEntry>, store: AttributeStore) {
    GroupKnown(refs, group) &&
    forall j :: 0 <= j < |entries| ==>
      EntryResolves(refs, entries[j]) && SlotOf(refs, group, entries[j]) in store
  }

  /** `store` holds what `base` held, except for slots written by an entry of the group. */
  ghost predicate EntriesWrittenFrom(refs: ReferenceData, group: string, entries: seq<KeyEntry>,
                                     base: AttributeStore, store: AttributeStore) {
    forall p :: p in store ==>
      (p in base && store[p] == base[p]) ||
      exists j :: 0 <= j < |entries| && GroupKnown(refs, group) && EntryResolves(refs, entries[j]) &&
        p == SlotOf(refs, group, entries[j]) && store[p] == QuantityOf(refs, entries[j])
  }

  /** Every entry of every group resolved and has its slot in `store`. */
  ghost predicate GroupsWritten(refs: ReferenceData, groups: seq<GroupEntry>, store: AttributeStore) {
    forall i :: 0 <= i < |groups| ==> EntriesWritten(refs, groups[i].group, groups[i].entries, store)
  }

  /** `store` holds what `base` held, except for slots written by some entry of the payload. */
  ghost predicate GroupsWrittenFrom(refs: ReferenceData, groups: seq<GroupEntry>,
                                    base: AttributeStore, store: AttributeStore) {
    forall p :: p in store ==>
      (p in base && store[p] == base[p]) ||
      exists i :: 0 <= i < |groups| && WrittenBy(refs, groups[i], store, p)
  }

  /** Slot `p` of `store` holds the quantity of some entry of group entry `g`. */
  ghost predicate WrittenBy(refs: ReferenceData, g: GroupEntry, store: AttributeStore, p: (Id, Id))
    requires p in store
  {
    exists j :: 0 <= j < |g.entries| && GroupKnown(refs, g.group) && EntryResolves(refs, g.entries[j]) &&
      p == SlotOf(refs, g.group, g.entries[j]) && store[p] == QuantityOf(refs, g.entries[j])
  }

  // ---------------------------------------------------------------------
  // The resolver.
  // ---------------------------------------------------------------------

  /** Resolves the entries of one known group in order, key before unit,
      writing each quantity into `store`; a later entry for the same slot
      overwrites an earlier one. */
  function ResolveKeys(refs: ReferenceData, group: string, entries: seq<KeyEntry>, store: AttributeStore)
    : (r: Result<AttributeStore, FieldError>)
    requires GroupKnown(refs, group)
    ensures r.Failure? <==> FirstFailure(refs, KeyLookups(entries)).Some?
    ensures r.Failure? ==> FirstFailure(refs, KeyLookups(entries)) == Some(r.error)
    ensures r.Success? ==> store.Keys <= r.value.Keys
    ensures r.Success? ==> EntriesWritten(refs, group, entries, r.value)
    ensures r.Success? ==> EntriesWrittenFrom(refs, group, entries, store, r.value)
  {
    if |entries| == 0 then Success(store)
    else
      var e := entries[0];
      var ls := KeyLookups(entries);
      assert ls == [KeyLookup(e.key), UnitLookup(e.unit)] + KeyLookups(entries[1..]);
      if !KeyKnown(refs, e.key) then
        assert ls[0] == KeyLookup(e.key);
        Failure(InvalidKey(e.key))
      else if e.unit !in refs.units then
        assert ls[0] == KeyLookup(e.key) && ls[1] == UnitLookup(e.unit);
        assert ls[1..][0] == UnitLookup(e.unit);
        Failure(InvalidUnit(e.unit))
      else
        var store' := store[SlotOf(refs, group, e) := QuantityOf(refs, e)];
        assert ls[1..][1..] == KeyLookups(entries[1..]);
        var r := ResolveKeys(refs, group, entries[1..], store');
        assert forall j :: 1 <= j < |entries| ==> entries[j] == entries[1..][j - 1];
        if r.Success? then
          assert EntriesWrittenFrom(refs, group, entries, store, r.value) by {
            forall p | p in r.value
              ensures (p in store && r.value[p] == store[p]) ||
                exists j :: 0 <= j < |entries| && GroupKnown(refs, group) && EntryResolves(refs, entries[j]) &&
                  p == SlotOf(refs, group, entries[j]) && r.value[p] == QuantityOf(refs, entries[j])
            {
              if p in store' && r.value[p] == store'[p] {
                if p == SlotOf(refs, group, e) {
                  assert entries[0] == e;
                }
              } else {
                var j :| 0 <= j < |entries[1..]| && EntryResolves(refs, entries[1..][j]) &&
                  p == SlotOf(refs, group, entries[1..][j]) && r.value[p] == QuantityOf(refs, entries[1..][j]);
                assert entries[j + 1] == entries[1..][j];
              }
            }
          }
          r
        else
          r
  }

  /** One group's keys followed by the remaining groups: the step of ResolveGroups. */
  lemma GroupStepWrittenFrom(refs: ReferenceData, groups: seq<GroupEntry>,
                             store: AttributeStore, mid: AttributeStore, store': AttributeStore)
    requires |groups| > 0
    requires EntriesWrittenFrom(refs, groups[0].group, groups[0].entries, store, mid)
    requires GroupsWrittenFrom(refs, groups[1..], mid, store')
    ensures GroupsWrittenFrom(refs, groups, store, store')
  {
    forall p | p in store'
      ensures (p in store && store'[p] == store[p]) ||
        exists i :: 0 <= i < |groups| && WrittenBy(refs, groups[i], store', p)
    {
      if p in mid && store'[p] == mid[p] {
        if !(p in store && mid[p] == store[p]) {
          var j :| 0 <= j < |groups[0].entries| && GroupKnown(refs, groups[0].group) &&
            EntryResolves(refs, groups[0].entries[j]) &&
            p == SlotOf(refs, groups[0].group, groups[0].entries[j]) &&
            mid[p] == QuantityOf(refs, groups[0].entries[j]);
          assert WrittenBy(refs, groups[0], store', p);
        }
      } else {
        var i :| 0 <= i < |groups[1..]| && WrittenBy(refs, groups[1..][i], store', p);
        assert groups[i + 1] == groups[1..][i];
      }
    }
  }

  lemma GroupStepWritten(refs: ReferenceData, groups: seq<GroupEntry>, mid: AttributeStore, store': AttributeStore)
    requires |groups| > 0
    requires EntriesWritten(refs, groups[0].group, groups[0].entries, mid)
    requires mid.Keys <= store'.Keys
    requires GroupsWritten(refs, groups[1..], store')
    ensures GroupsWritten(refs, groups, store')
  {
    forall i | 0 <= i < |groups|
      ensures EntriesWritten(refs, groups[i].group, groups[i].entries, store')
    {
      if i > 0 {
        assert groups[i] == groups[1..][i - 1];
      }
    }
  }

  /** Resolves every group, then its entries, in document order. */
  function ResolveGroups(refs: ReferenceData, groups: seq<GroupEntry>, store: AttributeStore)
    : (r: Result<AttributeStore, FieldError>)
    ensures r.Failure? <==> FirstFailure(refs, Lookups(groups)).Some?
    ensures r.Failure? ==> FirstFailure(refs, Lookups(groups)) == Some(r.error)
    ensures r.Success? ==> store.Keys <= r.value.Keys
    ensures r.Success? ==> GroupsWritten(refs, groups, r.value)
    ensures r.Success? ==> GroupsWrittenFrom(refs, groups, store, r.value)
  {
    if |groups| == 0 then Success(store)
    else
      var g := groups[0];
      var ls := Lookups(groups);
      assert ls == [GroupLookup(g.group)] + (KeyLookups(g.entries) + Lookups(groups[1..]));
      if !GroupKnown(refs, g.group) then
        assert ls[0] == GroupLookup(g.group);
        Failure(InvalidGroup(g.group))
      else
        assert ls[1..] == KeyLookups(g.entries) + Lookups(groups[1..]);
        FirstFailureAppend(refs, KeyLookups(g.entries), Lookups(groups[1..]));
        match ResolveKeys(refs, g.group, g.entries, store)
        case Failure(e) => Failure(e)
        case Success(mid) =>
          var r := ResolveGroups(refs, groups[1..], mid);
          if r.Success? then
            GroupStepWritten(refs, groups, mid, r.value);
            GroupStepWrittenFrom(refs, groups, store, mid, r.value);
            r
          else
            r
  }

  /** The attributes column: a falsy cell means no attributes; otherwise the
      cell must decode to a non-empty payload whose every name resolves, and
      the resulting store holds exactly the slots the payload names. */
  function ValidateAttributes(env: Env, cell: Option<string>): (r: Result<Option<AttributeStore>, FieldError>)
    ensures Falsy(cell) ==> r == Success(None)
    ensures !Falsy(cell) && (env.decode(cell.value).None? || env.decode(cell.value).value == []) ==>
      r == Failure(InvalidAttributesFormat)
    ensures !Falsy(cell) && env.decode(cell.value).Some? && env.decode(cell.value).value != [] ==>
      var ff := FirstFailure(env.refs, Lookups(env.decode(cell.value).value));
      (r.Failure? <==> ff.Some?) && (r.Failure? ==> r.error == ff.value)
    ensures !Falsy(cell) && r.Success? ==> r.value.Some?
    ensures r.Success? && r.value.Some? ==>
      !Falsy(cell) && env.decode(cell.value).Some? &&
      GroupsWritten(env.refs, env.decode(cell.value).value, r.value.value) &&
      GroupsWrittenFrom(env.refs, env.decode(cell.value).value, map[], r.value.value)
  {
    if Falsy(cell) then Success(None)
    else
      match env.decode(cell.value)
      case None => Failure(InvalidAttributesFormat)
      case Some(groups) =>
        if groups == [] then Failure(InvalidAttributesFormat)
        else
          match ResolveGroups(env.refs, groups, map[])
          case Failure(e) => Failure(e)
          case Success(store) => Success(Some(store))
  }
}

=== FILE: entities.dfy ===
/** The entities the importer reads and writes: reference-data catalogues
    (looked up by name, path or abbreviation), the validated product record,
    the persisted product, and the environment that stands in for the
    persistence layer and the PHP library calls the importer makes. */
module Entities {
  import opened Wrappers

  /** Internal identifier of a stored object or configuration entry. */
  type Id = nat

  /** The folder (admin-panel id 51) that newly created products are placed in. */
  const ProductFolderId: Id := 51

  /** A measured attribute value: the number and the id of its unit. */
  datatype Quantity = Quantity(value: real, unit: Id)

  /** A classification store: (group id, key id) to quantity. */
  type AttributeStore = map<(Id, Id), Quantity>

  /** One `key => {value, unit}` entry of a decoded attributes cell. */
  datatype KeyEntry = KeyEntry(key: string, value: real, unit: string)

  /** One `group => {...}` entry of a decoded attributes cell, entries in document order. */
  datatype GroupEntry = GroupEntry(group: string, entries: seq<KeyEntry>)

  /** Why a single cell was rejected. */
  datatype FieldError =
    | NameRequired
    | DescriptionRequired
    | CategoriesRequired
    | InvalidCategory(category: string)
    | BrandRequired
    | InvalidBrand(brand: string)
    | SkuRequired
    | InvalidSkuFormat
    | InvalidPrice
    | InvalidStock
    | StatusRequired
    | InvalidStatus(status: string)
    | InvalidAttributesFormat
    | InvalidGroup(group: string)
    | InvalidKey(key: string)
    | InvalidUnit(unit: string)

  /** Why the whole run stopped. */
  datatype ImportError =
    | HeaderMismatch(cell: nat, expected: string)
    | TooManyValues(row: nat)
    | NotEnoughValues(row: nat)
    | InvalidValue(row: nat, cell: nat, cause: FieldError)
    | SaveFailed(sku: string)

  /** The validated values of one data row, one field per column. */
  datatype Record = Record(
    name: string,
    description: string,
    image: Option<Id>,
    categories: seq<Id>,
    brand: Id,
    sku: string,
    price: Option<real>,
    stock: Option<int>,
    status: string,
    attributes: Option<AttributeStore>)

  /** A persisted product: where it lives, whether it is published, and its field values. */
  datatype Product = Product(key: string, parent: Id, published: bool, data: Record)

  /** All persisted products, found by SKU wherever they live. */
  type Store = map<string, Product>

  /** Every product is filed under its own SKU. */
  predicate WellKeyed(store: Store) {
    forall sku :: sku in store ==> store[sku].data.sku == sku
  }

  /** Read-only reference data. Group and key names are scoped by the id of
      an attribute store; `attributeStore` is the id of the store configured
      under the name "ProductAttributes". */
  datatype ReferenceData = ReferenceData(
    images: map<string, Id>,
    categories: map<string, Id>,
    brands: map<string, Id>,
    attributeStore: Id,
    groups: map<(Id, string), Id>,
    keys: map<(Id, string), Id>,
    units: map<string, Id>)

  /** Everything outside the importer that it consults: reference data,
      PHP's numeric-string reading (`is_numeric` and the numeric value, `None`
      when not numeric), attribute-cell decoding (`json_decode` after
      `stripcslashes`; `None` when the result is null or another falsy
      scalar, no groups for an empty array), the object-key
      sanitiser, and whether the persistence layer accepts a save. */
  datatype Env = Env(
    refs: ReferenceData,
    numeric: string -> Option<real>,
    decode: string -> Option<seq<GroupEntry>>,
    validKey: string -> string,
    saves: (Store, Product) -> bool)
}

=== FILE: examples_lemmas.dfy ===
/** Concrete cases of the importer's rules: the SKU pattern, PHP falsiness,
    the header check, the cell-count checks and fail-fast category lookup. */
module ImportExamples {
  import opened Wrappers
  import opened PhpSemantics
  import opened Entities
  import opened Validators
  import opened ProductsImport

  /** Three digits after `PROD-` are needed; the match may sit anywhere in
      the cell, so longer runs of digits and surrounding text pass too. */
  lemma SkuFormatCases()
    ensures ValidateSku(Some("PROD-12")) == Failure(InvalidSkuFormat)
    ensures ValidateSku(Some("PRD-123")) == Failure(InvalidSkuFormat)
    ensures ValidateSku(Some("PROD-123")) == Success("PROD-123")
    ensures ValidateSku(Some("PROD-1234")) == Success("PROD-1234")
    ensures ValidateSku(Some("XPROD-12345-Y")) == Success("XPROD-12345-Y")
    ensures ValidateSku(Some("0")) == Failure(SkuRequired)
  {
    assert SkuPatternAt("PROD-123", 0);
    assert SkuPatternAt("PROD-1234", 0);
    assert SkuPatternAt("XPROD-12345-Y", 1);
  }

  /** `"0"` is falsy: a required column rejects it as missing, an optional
      numeric column reads it as no value, even though `"0.0"` is a value. */
  lemma ZeroIsFalsy(numeric: string -> Option<real>)
    requires numeric("0.0") == Some(0.0)
    ensures ValidateName(Some("0")) == Failure(NameRequired)
    ensures ValidateStatus(Some("0")) == Failure(StatusRequired)
    ensures ValidatePrice(numeric, Some("0")) == Success(None)
    ensures ValidateStock(numeric, Some("0")) == Success(None)
    ensures ValidatePrice(numeric, Some("0.0")) == Success(Some(0.0))
  {
  }

  /** Price and stock: a negative or non-numeric value is an error, and stock is truncated. */
  lemma NumberCases(numeric: string -> Option<real>)
    requires numeric("-5") == Some(-5.0) && numeric("abc") == None && numeric("2.9") == Some(2.9)
    ensures ValidatePrice(numeric, Some("-5")) == Failure(InvalidPrice)
    ensures ValidatePrice(numeric, Some("abc")) == Failure(InvalidPrice)
    ensures ValidatePrice(numeric, None) == Success(None)
    ensures ValidateStock(numeric, Some("2.9")) == Success(Some(2))
    ensures ValidateStock(numeric, Some("-5")) == Failure(InvalidStock)
  {
  }

  /** Two comma-free names joined by one comma split back into those two names. */
  lemma ExplodePair(a: string, b: string)
    requires ',' !in a && ',' !in b
    ensures Explode(a + "," + b) == [a, b]
  {
    assert Implode([a, b]) == a + "," + b;
    ExplodeImplode([a, b]);
  }

  /** An unknown category is rejected by name even when a known one follows it. */
  lemma UnknownCategoryFirst(categories: map<string, Id>)
    requires "Shoes" in categories && "Bags" !in categories
    ensures ValidateCategories(categories, Some("Bags,Shoes")) == Failure(InvalidCategory("Bags"))
  {
    assert "Bags" + "," + "Shoes" == "Bags,Shoes";
    ExplodePair("Bags", "Shoes");
  }

  /** A known category does not save a row whose later category is unknown. */
  lemma UnknownCategoryLater(categories: map<string, Id>)
    requires "Shoes" in categories && "Bags" !in categories
    ensures ValidateCategories(categories, Some("Shoes,Bags")) == Failure(InvalidCategory("Bags"))
  {
    assert "Shoes" + "," + "Bags" == "Shoes,Bags";
    ExplodePair("Shoes", "Bags");
    var names := ["Shoes", "Bags"];
    assert names[0] == "Shoes" && names[1] == "Bags";
    assert !AllKnown(categories, names);
  }

  /** Pieces are not trimmed: a space after the comma is part of the name. */
  lemma CategoriesNotTrimmed(categories: map<string, Id>)
    requires "Shoes" in categories && " Shoes" !in categories
    ensures ValidateCategories(categories, Some("Shoes, Shoes")) == Failure(InvalidCategory(" Shoes"))
  {
    assert "Shoes" + "," + " Shoes" == "Shoes, Shoes";
    ExplodePair("Shoes", " Shoes");
    var names := ["Shoes", " Shoes"];
    assert names[0] == "Shoes" && names[1] == " Shoes";
    assert !AllKnown(categories, names);
  }

  /** A repeated category is resolved once per occurrence; an empty cell is missing. */
  lemma RepeatedCategoryKept(categories: map<string, Id>)
    requires "Shoes" in categories
    ensures ValidateCategories(categories, Some("Shoes,Shoes")) == Success([categories["Shoes"], categories["Shoes"]])
    ensures ValidateCategories(categories, Some("")) == Failure(CategoriesRequired)
  {
    assert "Shoes" + "," + "Shoes" == "Shoes,Shoes";
    ExplodePair("Shoes", "Shoes");
    var names := ["Shoes", "Shoes"];
    assert AllKnown(categories, names);
    var r := ResolveCategories(categories, names);
    assert |r.value| == 2 && r.value[0] == categories["Shoes"] && r.value[1] == categories["Shoes"];
    assert r.value == [categories["Shoes"], categories["Shoes"]];
  }

  /** Only the first header cell is checked: a header with the columns in
      another order fails at cell 0, and a header with the right first cell
      is accepted whatever follows, however many cells it has. */
  lemma HeaderCases(env: Env)
    ensures ProcessRow(env, 0, [Some("sku"), Some("name")]) == Failure(HeaderMismatch(0, "name"))
    ensures ProcessRow(env, 0, [Some("name")]) == Success(HeaderSkipped)
    ensures ProcessRow(env, 0, [Some("name"), Some("x"), Some("y"), Some("z"), None, None,
                                None, None, None, None, None, None]) == Success(HeaderSkipped)
    ensures ProcessRow(env, 0, []) == Failure(NotEnoughValues(0))
  {
  }

  /** With cells that all pass their validators, the count alone decides:
      ten cells import, dropping the last one is too few, adding one more
      is too many. */
  lemma CellCountCases(env: Env, row: nat, cells: seq<Option<string>>, extra: Option<string>)
    requires row > 0
    requires |cells| == ValuesPerRow && ValidCells(env, cells, 0, ValuesPerRow)
    ensures ProcessRow(env, row, cells).Success?
    ensures ProcessRow(env, row, cells[..9]) == Failure(NotEnoughValues(row))
    ensures ProcessRow(env, row, cells + [extra]) == Failure(TooManyValues(row))
  {
    assert ValidCells(env, cells[..9], 0, 9) by {
      forall k | 0 <= k < 9 ensures Validate(env, Columns[k], cells[..9][k]).Success? {
        assert cells[..9][k] == cells[k];
      }
    }
    assert ValidCells(env, cells + [extra], 0, ValuesPerRow) by {
      forall k | 0 <= k < ValuesPerRow ensures Validate(env, Columns[k], (cells + [extra])[k]).Success? {
        assert (cells + [extra])[k] == cells[k];
      }
    }
  }
}

=== FILE: execute.dfy ===
/** The command's `execute` loop written the way the command runs it: a
    row loop around a cell loop with a running cell count, an early exit on
    the first error, and the header row left after its first cell. It is
    proved to compute exactly the functional run. */
module ImportCommand {
  import opened Wrappers
  import opened Entities
  import opened ProductUpsert
  import opened ProductsImport

  /** Two records with the same value in every column are the same record. */
  lemma FieldsDetermineRecord(a: Record, b: Record)
    requires forall k :: 0 <= k < ValuesPerRow ==> Field(a, Columns[k]) == Field(b, Columns[k])
    ensures a == b
  {
    assert Field(a, Columns[0]) == Field(b, Columns[0]);
    assert Field(a, Columns[1]) == Field(b, Columns[1]);
    assert Field(a, Columns[2]) == Field(b, Columns[2]);
    assert Field(a, Columns[3]) == Field(b, Columns[3]);
    assert Field(a, Columns[4]) == Field(b, Columns[4]);
    assert Field(a, Columns[5]) == Field(b, Columns[5]);
    assert Field(a, Columns[6]) == Field(b, Columns[6]);
    assert Field(a, Columns[7]) == Field(b, Columns[7]);
    assert Field(a, Columns[8]) == Field(b, Columns[8]);
    assert Field(a, Columns[9]) == Field(b, Columns[9]);
  }

  /** The inner cell loop of one row. */
  method ReadRow(env: Env, rowIndex: nat, cells: seq<Option<string>>) returns (r: Result<RowOutcome, ImportError>)
    ensures r == ProcessRow(env, rowIndex, cells)
  {
    var totalValues := 0;
    var values: seq<Value> := [];
    var cellIndex := 0;
    while cellIndex < |cells|
      invariant cellIndex <= |cells| && cellIndex <= ValuesPerRow
      invariant totalValues == cellIndex == |values|
      invariant rowIndex == 0 ==> cellIndex == 0
      invariant ValidCells(env, cells, 0, cellIndex)
      invariant forall k :: 0 <= k < cellIndex ==> values[k] == Validate(env, Columns[k], cells[k]).value
    {
      if cellIndex >= ValuesPerRow {
        return Failure(TooManyValues(rowIndex));
      }
      var column := Columns[cellIndex];
      var value := cells[cellIndex];
      totalValues := totalValues + 1;
      if rowIndex == 0 {
        if value != Some(ColumnName(column)) {
          return Failure(HeaderMismatch(cellIndex, ColumnName(column)));
        }
        // the rest of the header row is not read
        return Success(HeaderSkipped);
      }
      var v := Validate(env, column, value);
      if v.Failure? {
        return Failure(InvalidValue(rowIndex, cellIndex, v.error));
      }
      values := values + [v.value];
      cellIndex := cellIndex + 1;
    }
    if totalValues < ValuesPerRow {
      return Failure(NotEnoughValues(rowIndex));
    }
    assert AllFit(values);
    var rec := ToRecord(values);
    FieldsDetermineRecord(rec, ProcessRow(env, rowIndex, cells).value.record);
    return Success(Ready(rec));
  }

  /** One unrolling of the run at row `i`. */
  lemma RunFromAt(step: StepFn, rows: seq<seq<Option<string>>>, i: nat, store: Store)
    requires i < |rows|
    ensures RunFrom(step, rows, i, store) ==
      match step(i, rows[i], store)
      case Failure(e) => Aborted(e, i, store)
      case Success(s) => RunFrom(step, rows, i + 1, s)
  {
  }

  /** What the import step does with each outcome of processing a row. */
  lemma ImportStepOfRow(env: Env, row: nat, cells: seq<Option<string>>, store: Store)
    ensures var r := ProcessRow(env, row, cells);
      r.Failure? ==> ImportStep(env)(row, cells, store) == Failure(r.error)
    ensures ProcessRow(env, row, cells) == Success(HeaderSkipped) ==>
      ImportStep(env)(row, cells, store) == Success(store)
    ensures var r := ProcessRow(env, row, cells);
      r.Success? && r.value.Ready? ==> ImportStep(env)(row, cells, store) == ImportProduct(env, store, r.value.record)
  {
  }

  /** One pass of the row loop: reads the row and, for a data row, upserts
      its product; the outcome is exactly the import step's. */
  method ImportRow(env: Env, rowIndex: nat, cells: seq<Option<string>>, store: Store)
    returns (res: Result<Store, ImportError>)
    ensures res == ImportStep(env)(rowIndex, cells, store)
  {
    var r := ReadRow(env, rowIndex, cells);
    ImportStepOfRow(env, rowIndex, cells, store);
    if r.Failure? {
      return Failure(r.error);
    }
    if r.value.HeaderSkipped? {
      return Success(store);
    }
    res := ImportProduct(env, store, r.value.record);
  }

  /** The command: processes the rows in order, upserting each data row's
      product, and on the first error stops with exit status FAILURE and the
      error that would be logged. */
  method Execute(env: Env, rows: seq<seq<Option<string>>>, store0: Store) returns (code: int, outcome: RunResult)
    ensures outcome == Run(env, rows, store0)
    ensures code == SUCCESS <==> outcome.Done?
    ensures code == FAILURE <==> outcome.Aborted?
  {
    var store := store0;
    var rowIndex := 0;
    while rowIndex < |rows|
      invariant rowIndex <= |rows|
      invariant RunFrom(ImportStep(env), rows, rowIndex, store) == Run(env, rows, store0)
    {
      var res := ImportRow(env, rowIndex, rows[rowIndex], store);
      RunFromAt(ImportStep(env), rows, rowIndex, store);
      if res.Failure? {
        return FAILURE, Aborted(res.error, rowIndex, store);
      }
      store := res.value;
      rowIndex := rowIndex + 1;
    }
    return SUCCESS, Done(store);
  }
}

=== FILE: import.dfy ===
/** The import command: the column table, the row processor that walks a
    row's cells in step with the columns, and the run over all rows that
    stops at the first error without undoing earlier imports. */
module ProductsImport {
  import opened Wrappers
  import opened PhpSemantics
  import opened Entities
  import opened Validators
  import opened AttributeResolver
  import opened ProductUpsert

  /** One column of the sheet, in the order the sheet must have them. */
  datatype Column = Name | Description | Image | Categories | Brand | Sku | Price | Stock | Status | Attributes

  /** The column table, which is also the header the sheet must start with. */
  const Columns: seq<Column> := [Name, Description, Image, Categories, Brand, Sku, Price, Stock, Status, Attributes]

  /** Cells a data row must have. */
  const ValuesPerRow: nat := 10

  /** Position of the SKU column. */
  const SkuCell: nat := 5

  /** The header text of a column. */
  function ColumnName(c: Column): string {
    match c
    case Name => "name"
    case Description => "description"
    case Image => "image"
    case Categories => "categories"
    case Brand => "brand"
    case Sku => "sku"
    case Price => "price"
    case Stock => "stock"
    case Status => "status"
    case Attributes => "attributes"
  }

  /** A validated cell, tagged with the shape its column produces. */
  datatype Value =
    | TextValue(text: string)
    | ImageValue(image: Option<Id>)
    | CategoriesValue(categories: seq<Id>)
    | BrandValue(brand: Id)
    | PriceValue(price: Option<real>)
    | StockValue(stock: Option<int>)
    | AttributesValue(attributes: Option<AttributeStore>)

  /** `v` has the shape column `c` produces. */
  predicate Fits(c: Column, v: Value) {
    match c
    case Name | Description | Sku | Status => v.TextValue?
    case Image => v.ImageValue?
    case Categories => v.CategoriesValue?
    case Brand => v.BrandValue?
    case Price => v.PriceValue?
    case Stock => v.StockValue?
    case Attributes => v.AttributesValue?
  }

  /** Columns whose falsy cell is an error rather than "no value". */
  predicate Required(c: Column) {
    c in {Name, Description, Categories, Brand, Sku, Status}
  }

  /** The column's validator, selected by column. */
  function Validate(env: Env, c: Column, cell: Option<string>): (r: Result<Value, FieldError>)
    ensures r.Success? ==> Fits(c, r.value)
  {
    match c
    case Name => ValidateName(cell).MapValue(s => TextValue(s))
    case Description => ValidateDescription(cell).MapValue(s => TextValue(s))
    case Image => ValidateImage(env.refs.images, cell).MapValue(i => ImageValue(i))
    case Categories => ValidateCategories(env.refs.categories, cell).MapValue(cs => CategoriesValue(cs))
    case Brand => ValidateBrand(env.refs.brands, cell).MapValue(b => BrandValue(b))
    case Sku => ValidateSku(cell).MapValue(s => TextValue(s))
    case Price => ValidatePrice(env.numeric, cell).MapValue(p => PriceValue(p))
    case Stock => ValidateStock(env.numeric, cell).MapValue(n => StockValue(n))
    case Status => ValidateStatus(cell).MapValue(s => TextValue(s))
    case Attributes => ValidateAttributes(env, cell).MapValue(a => AttributesValue(a))
  }

  /** A falsy cell (empty, `""` or `"0"`) is rejected by exactly the six
      required columns and means "no value" in the other four. */
  lemma FalsyCell(env: Env, c: Column, cell: Option<string>)
    requires Falsy(cell)
    ensures Validate(env, c, cell).Failure? <==> Required(c)
    ensures !Required(c) ==>
      Validate(env, c, cell) in {Success(ImageValue(None)), Success(PriceValue(None)),
                                 Success(StockValue(None)), Success(AttributesValue(None))}
  {
  }

  /** The column table: each column accepts exactly what its own rule
      accepts and yields that column's value. */
  lemma ColumnTable(env: Env, c: Column, cell: Option<string>)
    ensures var r := Validate(env, c, cell); c == Name ==>
      (r.Success? <==> !Falsy(cell)) && (r.Success? ==> r.value == TextValue(cell.value)) &&
      (r.Failure? ==> r.error == NameRequired)
    ensures var r := Validate(env, c, cell); c == Description ==>
      (r.Success? <==> !Falsy(cell)) && (r.Success? ==> r.value == TextValue(cell.value)) &&
      (r.Failure? ==> r.error == DescriptionRequired)
    ensures var r := Validate(env, c, cell); c == Image ==>
      r == Success(ImageValue(
        if !Falsy(cell) && cell.value in env.refs.images then Some(env.refs.images[cell.value]) else None))
    ensures var r := Validate(env, c, cell); c == Categories ==>
      (r.Success? <==> !Falsy(cell) && AllKnown(env.refs.categories, Explode(cell.value))) &&
      (r.Success? ==>
        |r.value.categories| == |Explode(cell.value)| &&
        forall i :: 0 <= i < |Explode(cell.value)| ==>
          r.value.categories[i] == env.refs.categories[Explode(cell.value)[i]]) &&
      (r.Failure? ==> r.error == ValidateCategories(env.refs.categories, cell).error)
    ensures var r := Validate(env, c, cell); c == Brand ==>
      (r.Success? <==> !Falsy(cell) && cell.value in env.refs.brands) &&
      (r.Success? ==> r.value == BrandValue(env.refs.brands[cell.value])) &&
      (Falsy(cell) ==> r == Failure(BrandRequired)) &&
      (!Falsy(cell) && r.Failure? ==> r.error == InvalidBrand(cell.value))
    ensures var r := Validate(env, c, cell); c == Sku ==>
      (r.Success? <==> !Falsy(cell) && ContainsSkuPattern(cell.value)) &&
      (r.Success? ==> r.value == TextValue(cell.value)) &&
      (Falsy(cell) ==> r == Failure(SkuRequired)) &&
      (!Falsy(cell) && r.Failure? ==> r.error == InvalidSkuFormat)
    ensures var r := Validate(env, c, cell); c == Price ==>
      (r.Success? <==> Falsy(cell) || (env.numeric(cell.value).Some? && env.numeric(cell.value).value >= 0.0)) &&
      (r.Success? ==> r.value == PriceValue(if Falsy(cell) then None else env.numeric(cell.value))) &&
      (r.Failure? ==> r.error == InvalidPrice)
    ensures var r := Validate(env, c, cell); c == Stock ==>
      (r.Success? <==> Falsy(cell) || (env.numeric(cell.value).Some? && env.numeric(cell.value).value >= 0.0)) &&
      (r.Success? ==> (r.value.stock.Some? <==> !Falsy(cell))) &&
      (r.Success? && !Falsy(cell) ==>
        0 <= r.value.stock.value &&
        r.value.stock.value as real <= env.numeric(cell.value).value < r.value.stock.value as real + 1.0) &&
      (r.Failure? ==> r.error == InvalidStock)
    ensures var r := Validate(env, c, cell); c == Status ==>
      (r.Success? <==> cell == Some("active") || cell == Some("inactive")) &&
      (r.Success? ==> r.value == TextValue(cell.value)) &&
      (Falsy(cell) ==> r == Failure(StatusRequired)) &&
      (!Falsy(cell) && r.Failure? ==> r.error == InvalidStatus(cell.value))
    ensures var r := Validate(env, c, cell); c == Attributes ==>
      (r.Success? && r.value.attributes.None? <==> Falsy(cell)) &&
      (!Falsy(cell) ==> (r.Success? <==>
        env.decode(cell.value).Some? && env.decode(cell.value).value != [] &&
        FirstFailure(env.refs, Lookups(env.decode(cell.value).value)).None?)) &&
      (r.Success? ==> r.value == AttributesValue(ValidateAttributes(env, cell).value)) &&
      (r.Failure? ==> r.error == ValidateAttributes(env, cell).error)
  {
  }

  /** The attributes column passes on what the attributes validator yields. */
  lemma AttributesColumn(env: Env, cell: Option<string>)
    ensures var r := Validate(env, Attributes, cell);
      (r.Success? <==> ValidateAttributes(env, cell).Success?) &&
      (r.Success? ==> r.value == AttributesValue(ValidateAttributes(env, cell).value)) &&
      (r.Success? ==> (r.value.attributes.None? <==> Falsy(cell)))
  {
  }

  /** The record's value for column `c`, tagged as that column's validator tags it. */
  function Field(rec: Record, c: Column): Value {
    match c
    case Name => TextValue(rec.name)
    case Description => TextValue(rec.description)
    case Image => ImageValue(rec.image)
    case Categories => CategoriesValue(rec.categories)
    case Brand => BrandValue(rec.brand)
    case Sku => TextValue(rec.sku)
    case Price => PriceValue(rec.price)
    case Stock => StockValue(rec.stock)
    case Status => TextValue(rec.status)
    case Attributes => AttributesValue(rec.attributes)
  }

  /** Every value has its column's shape. */
  predicate AllFit(vals: seq<Value>) {
    |vals| <= |Columns| && forall k :: 0 <= k < |vals| ==> Fits(Columns[k], vals[k])
  }

  /** The record built from one value per column: each field holds its column's value. */
  function ToRecord(vals: seq<Value>): (rec: Record)
    requires |vals| == ValuesPerRow && AllFit(vals)
    ensures forall k :: 0 <= k < ValuesPerRow ==> Field(rec, Columns[k]) == vals[k]
  {
    Record(
      vals[0].text, vals[1].text, vals[2].image, vals[3].categories, vals[4].brand,
      vals[5].text, vals[6].price, vals[7].stock, vals[8].text, vals[9].attributes)
  }

  function Min(a: nat, b: nat): nat {
    if a < b then a else b
  }

  /** Cells `from` up to (excluding) `to` all pass their column's validator. */
  ghost predicate ValidCells(env: Env, cells: seq<Option<string>>, from: nat, to: nat)
    requires to <= |cells| && to <= ValuesPerRow
  {
    forall k :: from <= k < to ==> Validate(env, Columns[k], cells[k]).Success?
  }

  /** A valid cell at `i` followed by a valid run from `i + 1` is a valid run from `i`. */
  lemma ValidCellsCons(env: Env, cells: seq<Option<string>>, i: nat)
    requires i < |cells| && i < ValuesPerRow
    requires Validate(env, Columns[i], cells[i]).Success?
    ensures forall to :: i < to <= |cells| && to <= ValuesPerRow && ValidCells(env, cells, i + 1, to) ==>
      ValidCells(env, cells, i, to)
  {
  }

  /** Validates the cells of data row `row` from position `i` on, in order,
      stopping at the first cell that fails or at a cell beyond the last column. */
  function ValidateCells(env: Env, row: nat, cells: seq<Option<string>>, i: nat): (r: Result<seq<Value>, ImportError>)
    requires i <= |cells| && i <= ValuesPerRow
    ensures r.Success? <==> |cells| <= ValuesPerRow && ValidCells(env, cells, i, |cells|)
    ensures r.Success? ==>
      |r.value| == |cells| - i &&
      forall k :: i <= k < |cells| ==> r.value[k - i] == Validate(env, Columns[k], cells[k]).value
    ensures r.Failure? ==>
      || (r.error == TooManyValues(row) && |cells| > ValuesPerRow && ValidCells(env, cells, i, ValuesPerRow))
      || (r.error.InvalidValue? && r.error.row == row &&
          i <= r.error.cell < Min(|cells|, ValuesPerRow) &&
          ValidCells(env, cells, i, r.error.cell) &&
          Validate(env, Columns[r.error.cell], cells[r.error.cell]) == Failure(r.error.cause))
    decreases |cells| - i
  {
    if i == |cells| then Success([])
    else if i >= ValuesPerRow then Failure(TooManyValues(row))
    else
      var first := Validate(env, Columns[i], cells[i]);
      if first.Failure? then Failure(InvalidValue(row, i, first.error))
      else
        ValidCellsCons(env, cells, i);
        var rest := ValidateCells(env, row, cells, i + 1);
        if rest.Failure? then Failure(rest.error) else Success([first.value] + rest.value)
  }

  /** What processing one row yields when it does not fail. */
  datatype RowOutcome = HeaderSkipped | Ready(record: Record)

  /** Row 0 only has its first cell compared with the first column name and
      is otherwise skipped. A data row is validated cell by cell and must
      have exactly one cell per column. */
  function ProcessRow(env: Env, row: nat, cells: seq<Option<string>>): (r: Result<RowOutcome, ImportError>)
    ensures row == 0 ==>
      (r == Success(HeaderSkipped) <==> |cells| > 0 && cells[0] == Some("name"))
    ensures row == 0 && |cells| == 0 ==> r == Failure(NotEnoughValues(0))
    ensures row == 0 && |cells| > 0 && cells[0] != Some("name") ==> r == Failure(HeaderMismatch(0, "name"))
    ensures row > 0 ==>
      (r.Success? <==> |cells| == ValuesPerRow && ValidCells(env, cells, 0, ValuesPerRow))
    ensures row > 0 && r.Success? ==>
      r.value.Ready? &&
      forall k :: 0 <= k < ValuesPerRow ==>
        Field(r.value.record, Columns[k]) == Validate(env, Columns[k], cells[k]).value
    ensures row > 0 && r.Failure? ==>
      || (r.error == TooManyValues(row) && |cells| > ValuesPerRow && ValidCells(env, cells, 0, ValuesPerRow))
      || (r.error == NotEnoughValues(row) && |cells| < ValuesPerRow && ValidCells(env, cells, 0, |cells|))
      || (r.error.InvalidValue? && r.error.row == row && r.error.cell < Min(|cells|, ValuesPerRow) &&
          ValidCells(env, cells, 0, r.error.cell) &&
          Validate(env, Columns[r.error.cell], cells[r.error.cell]) == Failure(r.error.cause))
  {
    if row == 0 then
      if |cells| == 0 then Failure(NotEnoughValues(row))
      else if cells[0] != Some(ColumnName(Columns[0])) then Failure(HeaderMismatch(0, ColumnName(Columns[0])))
      else Success(HeaderSkipped)
    else
      match ValidateCells(env, row, cells, 0)
      case Failure(e) => Failure(e)
      case Success(vals) =>
        if |vals| < ValuesPerRow then Failure(NotEnoughValues(row))
        else
          assert AllFit(vals) by {
            forall k | 0 <= k < |vals| ensures Fits(Columns[k], vals[k]) {
              assert vals[k - 0] == Validate(env, Columns[k], cells[k]).value;
            }
          }
          Success(Ready(ToRecord(vals)))
  }

  // A data row of ten cells that pass their validators is accepted, and by
  // ProcessRow's contract only such a row is. The three lemmas below say
  // what its record holds: what each column's own rule makes of that
  // column's cell.

  /** The text columns: name, description, SKU and status are the cells themselves. */
  lemma DataRowText(env: Env, row: nat, cells: seq<Option<string>>)
    requires row > 0
    requires |cells| == ValuesPerRow && ValidCells(env, cells, 0, ValuesPerRow)
    ensures ProcessRow(env, row, cells).Success? && ProcessRow(env, row, cells).value.Ready?
    ensures var rec := ProcessRow(env, row, cells).value.record;
      !Falsy(cells[0]) && rec.name == cells[0].value &&
      !Falsy(cells[1]) && rec.description == cells[1].value
    ensures var rec := ProcessRow(env, row, cells).value.record;
      cells[SkuCell] == Some(rec.sku) && ContainsSkuPattern(rec.sku)
    ensures var rec := ProcessRow(env, row, cells).value.record;
      cells[8] == Some(rec.status) && (rec.status == "active" || rec.status == "inactive")
  {
    var rec := ProcessRow(env, row, cells).value.record;
    forall k | 0 <= k < ValuesPerRow
      ensures Validate(env, Columns[k], cells[k]).Success?
      ensures Field(rec, Columns[k]) == Validate(env, Columns[k], cells[k]).value
    {
    }
    ColumnTable(env, Name, cells[0]);
    ColumnTable(env, Description, cells[1]);
    ColumnTable(env, Sku, cells[5]);
    ColumnTable(env, Status, cells[8]);
  }

  /** The looked-up columns: the resolved image, the ids of the categories and the brand. */
  lemma DataRowLookups(env: Env, row: nat, cells: seq<Option<string>>)
    requires row > 0
    requires |cells| == ValuesPerRow && ValidCells(env, cells, 0, ValuesPerRow)
    ensures ProcessRow(env, row, cells).Success? && ProcessRow(env, row, cells).value.Ready?
    ensures var rec := ProcessRow(env, row, cells).value.record;
      rec.image == if !Falsy(cells[2]) && cells[2].value in env.refs.images
                   then Some(env.refs.images[cells[2].value]) else None
    ensures var rec := ProcessRow(env, row, cells).value.record;
      !Falsy(cells[3]) && AllKnown(env.refs.categories, Explode(cells[3].value)) &&
      ValidateCategories(env.refs.categories, cells[3]) == Success(rec.categories)
    ensures var rec := ProcessRow(env, row, cells).value.record;
      !Falsy(cells[4]) && cells[4].value in env.refs.brands && rec.brand == env.refs.brands[cells[4].value]
  {
    var rec := ProcessRow(env, row, cells).value.record;
    forall k | 0 <= k < ValuesPerRow
      ensures Validate(env, Columns[k], cells[k]).Success?
      ensures Field(rec, Columns[k]) == Validate(env, Columns[k], cells[k]).value
    {
    }
    ColumnTable(env, Image, cells[2]);
    ColumnTable(env, Categories, cells[3]);
    ColumnTable(env, Brand, cells[4]);
  }

  /** The numeric columns: price and stock as read. */
  lemma DataRowNumbers(env: Env, row: nat, cells: seq<Option<string>>)
    requires row > 0
    requires |cells| == ValuesPerRow && ValidCells(env, cells, 0, ValuesPerRow)
    ensures ProcessRow(env, row, cells).Success? && ProcessRow(env, row, cells).value.Ready?
    ensures var rec := ProcessRow(env, row, cells).value.record;
      rec.price == if Falsy(cells[6]) then None else env.numeric(cells[6].value)
    ensures var rec := ProcessRow(env, row, cells).value.record;
      rec.stock.Some? <==> !Falsy(cells[7])
    ensures var rec := ProcessRow(env, row, cells).value.record;
      rec.stock.Some? ==>
        env.numeric(cells[7].value).Some? && 0 <= rec.stock.value &&
        rec.stock.value as real <= env.numeric(cells[7].value).value < rec.stock.value as real + 1.0
  {
    var rec := ProcessRow(env, row, cells).value.record;
    forall k | 0 <= k < ValuesPerRow
      ensures Validate(env, Columns[k], cells[k]).Success?
      ensures Field(rec, Columns[k]) == Validate(env, Columns[k], cells[k]).value
    {
    }
    ColumnTable(env, Price, cells[6]);
    ColumnTable(env, Stock, cells[7]);
  }

  /** The attributes column: the store the attributes validator resolved, if any. */
  lemma DataRowAttributes(env: Env, row: nat, cells: seq<Option<string>>)
    requires row > 0
    requires |cells| == ValuesPerRow && ValidCells(env, cells, 0, ValuesPerRow)
    ensures ProcessRow(env, row, cells).Success? && ProcessRow(env, row, cells).value.Ready?
    ensures var rec := ProcessRow(env, row, cells).value.record;
      (rec.attributes.None? <==> Falsy(cells[9])) &&
      ValidateAttributes(env, cells[9]) == Success(rec.attributes)
  {
    var rec := ProcessRow(env, row, cells).value.record;
    var v := Validate(env, Attributes, cells[9]);
    assert Columns[9] == Attributes;
    assert v.Success?;
    assert Field(rec, Attributes) == v.value;
    AttributesColumn(env, cells[9]);
  }

  // ---------------------------------------------------------------------
  // The run over all rows.
  // ---------------------------------------------------------------------

  /** The state the run ends in: every row processed, or halted at `row`
      with the products saved before that row still in the store. */
  datatype RunResult = Done(store: Store) | Aborted(error: ImportError, row: nat, store: Store)

  /** The command's exit status. */
  const SUCCESS: int := 0
  const FAILURE: int := 1

  /** Processes row `row` against `store`: the header is only checked, a
      data row is validated and then upserted. */
  function Step(env: Env, row: nat, cells: seq<Option<string>>, store: Store): Result<Store, ImportError> {
    match ProcessRow(env, row, cells)
    case Failure(e) => Failure(e)
    case Success(HeaderSkipped) => Success(store)
    case Success(Ready(rec)) => ImportProduct(env, store, rec)
  }

  /** What one step promises: the header row succeeds exactly when its first
      cell is `name` and then changes nothing; a row error is the step's
      error; a data row succeeds exactly when it yields a record and the save
      of its prepared product is accepted, and then the store gains exactly
      that SKU, holding the record, published; a refused save is an error
      naming the SKU. */
  lemma StepOutcome(env: Env, row: nat, cells: seq<Option<string>>, store: Store)
    ensures var r := Step(env, row, cells, store);
      row == 0 ==> (r.Success? <==> |cells| > 0 && cells[0] == Some("name"))
    ensures var r := Step(env, row, cells, store);
      row == 0 && r.Success? ==> r.value == store
    ensures var r := Step(env, row, cells, store);
      ProcessRow(env, row, cells).Failure? ==> r == Failure(ProcessRow(env, row, cells).error)
    ensures var r := Step(env, row, cells, store);
      row > 0 ==>
        (r.Success? <==>
          ProcessRow(env, row, cells).Success? &&
          env.saves(store, Prepared(env, store, ProcessRow(env, row, cells).value.record)))
    ensures var r := Step(env, row, cells, store);
      row > 0 && r.Success? ==>
        var rec := ProcessRow(env, row, cells).value.record;
        r.value.Keys == store.Keys + {rec.sku} && r.value[rec.sku].data == rec && r.value[rec.sku].published
    ensures var r := Step(env, row, cells, store);
      row > 0 && r.Failure? && ProcessRow(env, row, cells).Success? ==>
        r.error == SaveFailed(ProcessRow(env, row, cells).value.record.sku)
  {
  }

  /** One row's processing as a value: row index, cells and store in, new
      store or error out. */
  type StepFn = (nat, seq<Option<string>>, Store) -> Result<Store, ImportError>

  /** The step the import command performs for each row. */
  function ImportStep(env: Env): StepFn {
    (row: nat, cells: seq<Option<string>>, store: Store) => Step(env, row, cells, store)
  }

  /** Processes rows `i..` in order with `step`, stopping at the first failing row. */
  function RunFrom(step: StepFn, rows: seq<seq<Option<string>>>, i: nat, store: Store): (r: RunResult)
    requires i <= |rows|
    ensures r.Aborted? ==> i <= r.row < |rows|
    decreases |rows| - i
  {
    if i == |rows| then Done(store)
    else
      match step(i, rows[i], store)
      case Failure(e) => Aborted(e, i, store)
      case Success(store') => RunFrom(step, rows, i + 1, store')
  }

  /** The whole import: every row of the sheet, the header first. */
  function Run(env: Env, rows: seq<seq<Option<string>>>, store: Store): RunResult {
    RunFrom(ImportStep(env), rows, 0, store)
  }
}

=== FILE: php.dfy ===
/** The two pieces of PHP language behaviour the importer leans on: the
    truthiness test `!$x` on a nullable string, and `explode(",", $s)`. */
module PhpSemantics {
  import opened Wrappers

  /** `!$s` for a `?string`: `null`, `""` and `"0"` are falsy; every other
      string, including `"0.0"`, `" "` and `"00"`, is truthy. */
  predicate Falsy(s: Option<string>) {
    s.None? || s.value == "" || s.value == "0"
  }

  /** `explode(",", $s)`: the pieces between the commas, in order and
      untrimmed; a string without a comma is a single piece, and an empty
      piece appears wherever two commas touch or a comma starts or ends `s`. */
  function Explode(s: string): (pieces: seq<string>)
    ensures |pieces| >= 1
    ensures forall i :: 0 <= i < |pieces| ==> ',' !in pieces[i]
  {
    if |s| == 0 then [""]
    else
      var rest := Explode(s[1..]);
      if s[0] == ',' then [""] + rest
      else [[s[0]] + rest[0]] + rest[1..]
  }

  /** `implode(",", $pieces)`: the pieces joined with a comma between each two. */
  function Implode(pieces: seq<string>): string
    requires |pieces| >= 1
  {
    if |pieces| == 1 then pieces[0]
    else pieces[0] + [','] + Implode(pieces[1..])
  }

  /** Splitting loses nothing: joining the pieces again gives back `s`. */
  lemma {:induction false} ImplodeExplode(s: string)
    ensures Implode(Explode(s)) == s
  {
    if |s| > 0 {
      var rest := Explode(s[1..]);
      ImplodeExplode(s[1..]);
      if s[0] == ',' {
        assert ([""] + rest)[1..] == rest;
      } else if |rest| > 1 {
        var pieces := [[s[0]] + rest[0]] + rest[1..];
        assert pieces[1..] == rest[1..];
        assert Implode(rest) == rest[0] + [','] + Implode(rest[1..]);
        assert s == [s[0]] + s[1..];
      } else {
        assert s == [s[0]] + s[1..];
      }
    }
  }

  /** Exploding a comma-free prefix `a` glues it onto the first piece of the rest. */
  lemma {:induction false} ExplodeCommaFreePrefix(a: string, t: string)
    requires ',' !in a
    ensures Explode(a + t) == [a + Explode(t)[0]] + Explode(t)[1..]
  {
    if |a| > 0 {
      assert (a + t)[1..] == a[1..] + t;
      ExplodeCommaFreePrefix(a[1..], t);
      assert [a[0]] + (a[1..] + Explode(t)[0]) == a + Explode(t)[0];
    } else {
      assert a + t == t;
      var e := Explode(t);
      assert a + e[0] == e[0];
      assert e == [e[0]] + e[1..];
    }
  }

  /** Splitting is the inverse of joining comma-free pieces. */
  lemma {:induction false} ExplodeImplode(pieces: seq<string>)
    requires |pieces| >= 1
    requires forall i :: 0 <= i < |pieces| ==> ',' !in pieces[i]
    ensures Explode(Implode(pieces)) == pieces
  {
    if |pieces| == 1 {
      ExplodeCommaFreePrefix(pieces[0], "");
      assert pieces[0] + "" == pieces[0];
    } else {
      var tail := Implode(pieces[1..]);
      ExplodeImplode(pieces[1..]);
      assert pieces[0] + [','] + tail == pieces[0] + ([','] + tail);
      ExplodeCommaFreePrefix(pieces[0], [','] + tail);
      assert ([','] + tail)[1..] == tail;
      assert Explode([','] + tail) == [""] + pieces[1..];
      assert pieces[0] + "" == pieces[0];
      assert pieces == [pieces[0]] + pieces[1..];
    }
  }
}

=== FILE: run_properties.dfy ===
/** Properties of a whole import run: rows are processed strictly in order,
    the first error halts the run, nothing saved before it is undone, and
    the store afterwards holds one product per imported SKU. The fold
    lemmas are stated for any step function and then applied to the
    importer's own step. */
module RunProperties {
  import opened Wrappers
  import opened Entities
  import opened Validators
  import opened ProductUpsert
  import opened ProductsImport

  type Sheet = seq<seq<Option<string>>>

  // ---------------------------------------------------------------------
  // Order and halting.
  // ---------------------------------------------------------------------

  /** Running to row `n` and then on from there is the same as running straight through. */
  lemma {:induction false} RunFromSplit(step: StepFn, rows: Sheet, n: nat, i: nat, store: Store)
    requires i <= n <= |rows|
    ensures RunFrom(step, rows, i, store) ==
      match RunFrom(step, rows[..n], i, store)
      case Aborted(e, k, s) => Aborted(e, k, s)
      case Done(s) => RunFrom(step, rows, n, s)
    decreases n - i
  {
    if i < n {
      assert rows[..n][i] == rows[i];
      var st := step(i, rows[i], store);
      if st.Success? {
        RunFromSplit(step, rows, n, i + 1, st.value);
      }
    }
  }

  /** A halted run stopped at a row whose step really failed, and the store
      it reports is exactly what the rows before that one produced. */
  lemma {:induction false} AbortedAtFailingRow(step: StepFn, rows: Sheet, i: nat, store: Store)
    requires i <= |rows|
    requires RunFrom(step, rows, i, store).Aborted?
    ensures var a := RunFrom(step, rows, i, store);
      i <= a.row < |rows| &&
      RunFrom(step, rows[..a.row], i, store) == Done(a.store) &&
      step(a.row, rows[a.row], a.store) == Failure(a.error)
    decreases |rows| - i
  {
    var a := RunFrom(step, rows, i, store);
    var st := step(i, rows[i], store);
    if st.Success? {
      AbortedAtFailingRow(step, rows, i + 1, st.value);
      RunFromSplit(step, rows, a.row, i + 1, st.value);
      assert rows[..a.row][i] == rows[i];
    }
  }

  /** The import halts at the first row that fails: everything before it
      was processed and saved, and that row's own step failed with the
      reported error. */
  lemma ImportAbortsAtFirstError(env: Env, rows: Sheet, store: Store)
    requires Run(env, rows, store).Aborted?
    ensures var a := Run(env, rows, store);
      a.row < |rows| &&
      Run(env, rows[..a.row], store) == Done(a.store) &&
      Step(env, a.row, rows[a.row], a.store) == Failure(a.error)
  {
    AbortedAtFailingRow(ImportStep(env), rows, 0, store);
  }

  /** Once the import halts, rows after the failing one are never looked
      at: appending any rows to the sheet gives the same outcome. */
  lemma LaterRowsIgnored(env: Env, rows: Sheet, more: Sheet, store: Store)
    requires Run(env, rows, store).Aborted?
    ensures Run(env, rows + more, store) == Run(env, rows, store)
  {
    RunFromSplit(ImportStep(env), rows + more, |rows|, 0, store);
    assert (rows + more)[..|rows|] == rows;
  }

  /** Success means every row was processed: each prefix of the sheet runs
      to completion and the next row's step succeeds on its store. */
  lemma DoneProcessedEveryRow(env: Env, rows: Sheet, store: Store)
    requires Run(env, rows, store).Done?
    ensures forall n :: 0 <= n < |rows| ==>
      Run(env, rows[..n], store).Done? && Step(env, n, rows[n], Run(env, rows[..n], store).store).Success?
  {
    forall n | 0 <= n < |rows|
      ensures Run(env, rows[..n], store).Done? && Step(env, n, rows[n], Run(env, rows[..n], store).store).Success?
    {
      RunFromSplit(ImportStep(env), rows, n, 0, store);
    }
  }

  // ---------------------------------------------------------------------
  // What a run does to the store.
  // ---------------------------------------------------------------------

  /** The SKU cells of the data rows from row `i` on. */
  ghost function SkusFrom(rows: Sheet, i: nat): set<string> {
    set k | i <= k < |rows| && 0 < k && |rows[k]| > SkuCell && rows[k][SkuCell].Some? :: rows[k][SkuCell].value
  }

  /** The SKU cell of row `row`, if it is a data row that has one. */
  function OwnSku(row: nat, cells: seq<Option<string>>): set<string> {
    if 0 < row && |cells| > SkuCell && cells[SkuCell].Some? then {cells[SkuCell].value} else {}
  }

  lemma SkusFromUnfold(rows: Sheet, i: nat)
    requires i < |rows|
    ensures SkusFrom(rows, i) == SkusFrom(rows, i + 1) + OwnSku(i, rows[i])
  {
    var own := OwnSku(i, rows[i]);
    forall x | x in SkusFrom(rows, i) ensures x in SkusFrom(rows, i + 1) + own {
      var k :| i <= k < |rows| && 0 < k && |rows[k]| > SkuCell && rows[k][SkuCell].Some? && x == rows[k][SkuCell].value;
      if k > i {
        assert x in SkusFrom(rows, i + 1);
      }
    }
  }

  /** A successful step from `store` to `store'` on row `row`: the header
      leaves the store alone; a data row has all its cells and writes
      exactly the published product named by its SKU cell. */
  ghost predicate StepWrites(row: nat, cells: seq<Option<string>>, store: Store, store': Store) {
    (row == 0 ==> store' == store) &&
    (row > 0 ==>
      |cells| == ValuesPerRow && cells[SkuCell].Some? &&
      store'.Keys == store.Keys + {cells[SkuCell].value} &&
      store'[cells[SkuCell].value].published &&
      forall other :: other in store && other != cells[SkuCell].value ==> store'[other] == store[other]) &&
    (WellKeyed(store) ==> WellKeyed(store'))
  }

  /** Every successful step of `step` behaves as StepWrites describes. */
  ghost predicate Confined(step: StepFn) {
    forall row, cells, store :: step(row, cells, store).Success? ==>
      StepWrites(row, cells, store, step(row, cells, store).value)
  }

  /** A successful step adds exactly its own row's SKU to the store's keys. */
  lemma StepKeys(step: StepFn, row: nat, cells: seq<Option<string>>, store: Store)
    requires Confined(step)
    requires step(row, cells, store).Success?
    ensures step(row, cells, store).value.Keys == store.Keys + OwnSku(row, cells)
  {
    assert StepWrites(row, cells, store, step(row, cells, store).value);
  }

  /** A successful step keeps every product filed under its own SKU. */
  lemma StepKeepsWellKeyed(step: StepFn, row: nat, cells: seq<Option<string>>, store: Store)
    requires Confined(step)
    requires step(row, cells, store).Success?
    requires WellKeyed(store)
    ensures WellKeyed(step(row, cells, store).value)
  {
    assert StepWrites(row, cells, store, step(row, cells, store).value);
  }

  /** A successful step leaves every product but its own row's as it was. */
  lemma StepKeepsOthers(step: StepFn, row: nat, cells: seq<Option<string>>, store: Store)
    requires Confined(step)
    requires step(row, cells, store).Success?
    ensures var s := step(row, cells, store).value;
      forall sku :: sku in store && sku !in OwnSku(row, cells) ==> sku in s && s[sku] == store[sku]
  {
    assert StepWrites(row, cells, store, step(row, cells, store).value);
  }

  /** What one successful import step does: the header is only checked; a
      data row has all ten cells and upserts exactly the product named by
      its SKU cell, published and holding the row's record. */
  lemma StepEffect(env: Env, row: nat, cells: seq<Option<string>>, store: Store)
    requires Step(env, row, cells, store).Success?
    ensures StepWrites(row, cells, store, Step(env, row, cells, store).value)
    ensures row > 0 ==>
      ProcessRow(env, row, cells).Success? && ProcessRow(env, row, cells).value.Ready? &&
      Step(env, row, cells, store).value[cells[SkuCell].value].data == ProcessRow(env, row, cells).value.record
  {
    if row > 0 {
      var rec := ProcessRow(env, row, cells).value.record;
      assert Step(env, row, cells, store) == ImportProduct(env, store, rec);
      assert Validate(env, Columns[SkuCell], cells[SkuCell]).Success?;
      assert Field(rec, Columns[SkuCell]) == Validate(env, Sku, cells[SkuCell]).value;
      ColumnTable(env, Sku, cells[SkuCell]);
      assert rec.sku == cells[SkuCell].value;
    }
  }

  lemma ImportStepConfined(env: Env)
    ensures Confined(ImportStep(env))
  {
    forall row, cells, store | ImportStep(env)(row, cells, store).Success?
      ensures StepWrites(row, cells, store, ImportStep(env)(row, cells, store).value)
    {
      StepEffect(env, row, cells, store);
    }
  }

  /** A run from row `i` never removes a product. */
  lemma {:induction false} RunFromKeepsKeys(step: StepFn, rows: Sheet, i: nat, store: Store)
    requires i <= |rows|
    requires Confined(step)
    ensures store.Keys <= RunFrom(step, rows, i, store).store.Keys
    decreases |rows| - i
  {
    if i < |rows| {
      var st := step(i, rows[i], store);
      if st.Success? {
        StepKeys(step, i, rows[i], store);
        RunFromKeepsKeys(step, rows, i + 1, st.value);
        assert RunFrom(step, rows, i, store) == RunFrom(step, rows, i + 1, st.value);
      }
    }
  }

  /** A run from row `i` only adds products for SKUs in the rows. */
  lemma {:induction false} RunFromAddsOnlySheetSkus(step: StepFn, rows: Sheet, i: nat, store: Store)
    requires i <= |rows|
    requires Confined(step)
    ensures RunFrom(step, rows, i, store).store.Keys <= store.Keys + SkusFrom(rows, i)
    decreases |rows| - i
  {
    if i < |rows| {
      var st := step(i, rows[i], store);
      if st.Success? {
        SkusFromUnfold(rows, i);
        StepKeys(step, i, rows[i], store);
        RunFromAddsOnlySheetSkus(step, rows, i + 1, st.value);
        assert RunFrom(step, rows, i, store) == RunFrom(step, rows, i + 1, st.value);
      }
    }
  }

  /** A run from row `i` leaves every product whose SKU is not in the rows as it was. */
  lemma {:induction false} RunFromLeavesOthers(step: StepFn, rows: Sheet, i: nat, store: Store)
    requires i <= |rows|
    requires Confined(step)
    ensures var r := RunFrom(step, rows, i, store).store;
      forall sku :: sku in store && sku !in SkusFrom(rows, i) ==> sku in r && r[sku] == store[sku]
    decreases |rows| - i
  {
    if i < |rows| {
      var st := step(i, rows[i], store);
      if st.Success? {
        SkusFromUnfold(rows, i);
        StepKeepsOthers(step, i, rows[i], store);
        RunFromLeavesOthers(step, rows, i + 1, st.value);
        assert RunFrom(step, rows, i, store) == RunFrom(step, rows, i + 1, st.value);
      }
    }
  }

  /** A completed run from row `i` holds a product for every SKU in the rows. */
  lemma {:induction false} RunFromCoversSheetSkus(step: StepFn, rows: Sheet, i: nat, store: Store)
    requires i <= |rows|
    requires Confined(step)
    requires RunFrom(step, rows, i, store).Done?
    ensures SkusFrom(rows, i) <= RunFrom(step, rows, i, store).store.Keys
    decreases |rows| - i
  {
    if i < |rows| {
      var st := step(i, rows[i], store);
      assert st.Success? && RunFrom(step, rows, i, store) == RunFrom(step, rows, i + 1, st.value);
      SkusFromUnfold(rows, i);
      StepKeys(step, i, rows[i], store);
      RunFromCoversSheetSkus(step, rows, i + 1, st.value);
      RunFromKeepsKeys(step, rows, i + 1, st.value);
    }
  }

  /** Every product stays filed under its own SKU throughout a run. */
  lemma {:induction false} RunFromWellKeyed(step: StepFn, rows: Sheet, i: nat, store: Store)
    requires i <= |rows|
    requires Confined(step)
    requires WellKeyed(store)
    ensures WellKeyed(RunFrom(step, rows, i, store).store)
    decreases |rows| - i
  {
    if i < |rows| {
      var st := step(i, rows[i], store);
      if st.Success? {
        StepKeepsWellKeyed(step, i, rows[i], store);
        RunFromWellKeyed(step, rows, i + 1, st.value);
        assert RunFrom(step, rows, i, store) == RunFrom(step, rows, i + 1, st.value);
      }
    }
  }

  /** The import never deletes a product, never touches a product whose SKU
      is not in the sheet (whether it halts or not), keeps every product
      filed under its own SKU, and on success holds a product for every SKU
      of the sheet's data rows and no others beyond those it started with. */
  lemma ImportStoreEffect(env: Env, rows: Sheet, store: Store)
    ensures var r := Run(env, rows, store);
      store.Keys <= r.store.Keys &&
      r.store.Keys <= store.Keys + SkusFrom(rows, 0) &&
      (forall sku :: sku in store && sku !in SkusFrom(rows, 0) ==> r.store[sku] == store[sku]) &&
      (WellKeyed(store) ==> WellKeyed(r.store)) &&
      (r.Done? ==> r.store.Keys == store.Keys + SkusFrom(rows, 0))
  {
    ImportStepConfined(env);
    RunFromKeepsKeys(ImportStep(env), rows, 0, store);
    RunFromAddsOnlySheetSkus(ImportStep(env), rows, 0, store);
    RunFromLeavesOthers(ImportStep(env), rows, 0, store);
    if Run(env, rows, store).Done? {
      RunFromCoversSheetSkus(ImportStep(env), rows, 0, store);
    }
    if WellKeyed(store) {
      RunFromWellKeyed(ImportStep(env), rows, 0, store);
    }
  }

  /** After a completed run from row `i`, the product written by data row
      `k` survives unchanged when no later row repeats its SKU cell. */
  lemma LastWriteKept(step: StepFn, rows: Sheet, i: nat, store: Store, k: nat)
    requires Confined(step)
    requires i <= k < |rows| && 0 < k
    requires RunFrom(step, rows, i, store).Done?
    requires |rows[k]| > SkuCell && rows[k][SkuCell].Some?
    requires forall j :: k < j < |rows| && |rows[j]| > SkuCell ==> rows[j][SkuCell] != rows[k][SkuCell]
    ensures RunFrom(step, rows[..k], i, store).Done?
    ensures var before := RunFrom(step, rows[..k], i, store).store;
      var sku := rows[k][SkuCell].value;
      step(k, rows[k], before).Success? &&
      sku in RunFrom(step, rows, i, store).store &&
      RunFrom(step, rows, i, store).store[sku] == step(k, rows[k], before).value[sku]
  {
    RunFromSplit(step, rows, k, i, store);
    var prefix := RunFrom(step, rows[..k], i, store);
    assert prefix.Done?;
    var before := prefix.store;
    assert RunFrom(step, rows, i, store) == RunFrom(step, rows, k, before);
    var st := step(k, rows[k], before);
    assert st.Success?;
    var after := st.value;
    assert RunFrom(step, rows, k, before) == RunFrom(step, rows, k + 1, after);
    assert StepWrites(k, rows[k], before, after);
    var sku := rows[k][SkuCell].value;
    assert sku in after;
    assert sku !in SkusFrom(rows, k + 1);
    RunFromLeavesOthers(step, rows, k + 1, after);
  }

  /** After a successful import, the product for the last data row carrying
      a given SKU holds exactly that row's values and is published: a
      repeated SKU updates the one product in place, last row wins. */
  lemma LastRowWins(env: Env, rows: Sheet, store: Store, k: nat)
    requires 0 < k < |rows|
    requires Run(env, rows, store).Done?
    requires |rows[k]| > SkuCell && rows[k][SkuCell].Some?
    requires forall j :: k < j < |rows| && |rows[j]| > SkuCell ==> rows[j][SkuCell] != rows[k][SkuCell]
    ensures ProcessRow(env, k, rows[k]).Success? && ProcessRow(env, k, rows[k]).value.Ready?
    ensures var f := Run(env, rows, store).store; var sku := rows[k][SkuCell].value;
      sku in f && f[sku].published && f[sku].data == ProcessRow(env, k, rows[k]).value.record
  {
    ImportStepConfined(env);
    LastWriteKept(ImportStep(env), rows, 0, store, k);
    var before := RunFrom(ImportStep(env), rows[..k], 0, store).store;
    StepEffect(env, k, rows[k], before);
  }
}

=== FILE: upsert.dfy ===
/** Find-or-create of a product by SKU, followed by overwriting every field,
    publishing it, and saving it. */
module ProductUpsert {
  import opened Wrappers
  import opened Entities

  /** The product as it stands just before `save()`: the stored product with
      this SKU if there is one (wherever it is filed), otherwise a new one in
      the product folder under the key derived from the SKU; either way
      published and carrying exactly the record's field values. */
  function Prepared(env: Env, store: Store, rec: Record): (p: Product)
    ensures p.published && p.data == rec
    ensures rec.sku in store ==> p.key == store[rec.sku].key && p.parent == store[rec.sku].parent
    ensures rec.sku !in store ==> p.key == env.validKey(rec.sku) && p.parent == ProductFolderId
  {
    if rec.sku in store then store[rec.sku].(published := true, data := rec)
    else Product(env.validKey(rec.sku), ProductFolderId, true, rec)
  }

  /** Upserts the product for `rec`. A rejected save leaves the store as it
      was and becomes an error naming the SKU. */
  function ImportProduct(env: Env, store: Store, rec: Record): (r: Result<Store, ImportError>)
    ensures r.Failure? <==> !env.saves(store, Prepared(env, store, rec))
    ensures r.Failure? ==> r.error == SaveFailed(rec.sku)
    ensures r.Success? ==> r.value.Keys == store.Keys + {rec.sku}
    ensures r.Success? ==> |r.value| == if rec.sku in store then |store| else |store| + 1
    ensures r.Success? ==>
      var p := r.value[rec.sku];
      p.published && p.data == rec &&
      (rec.sku in store ==> p.key == store[rec.sku].key && p.parent == store[rec.sku].parent) &&
      (rec.sku !in store ==> p.key == env.validKey(rec.sku) && p.parent == ProductFolderId)
    ensures r.Success? ==> forall sku :: sku in store && sku != rec.sku ==> r.value[sku] == store[sku]
    ensures r.Success? && WellKeyed(store) ==> WellKeyed(r.value)
  {
    var p := Prepared(env, store, rec);
    if env.saves(store, p) then Success(store[rec.sku := p])
    else Failure(SaveFailed(rec.sku))
  }

  /** Importing the same record again, once the first import was saved,
      changes nothing: no duplicate product and no field change. */
  lemma ReimportIsIdempotent(env: Env, store: Store, rec: Record)
    requires ImportProduct(env, store, rec).Success?
    requires var s1 := ImportProduct(env, store, rec).value; env.saves(s1, Prepared(env, s1, rec))
    ensures var s1 := ImportProduct(env, store, rec).value; ImportProduct(env, s1, rec) == Success(s1)
  {
    var s1 := ImportProduct(env, store, rec).value;
    assert Prepared(env, s1, rec) == s1[rec.sku];
    assert s1[rec.sku := s1[rec.sku]] == s1;
  }
}

=== FILE: validators.dfy ===
/** The per-column validators of the importer, except the attributes
    column, which has a module of its own. Each takes the raw cell (`None`
    for an empty cell) and returns the value to import or the reason the
    cell is rejected. */
module Validators {
  import opened Wrappers
  import opened PhpSemantics
  import opened Entities

  /** Shared shape of the name and description checks: any truthy string is kept as is. */
  function RequireTruthy(cell: Option<string>, missing: FieldError): (r: Result<string, FieldError>)
    ensures r.Success? <==> !Falsy(cell)
    ensures r.Success? ==> cell == Some(r.value) && r.value != "" && r.value != "0"
    ensures r.Failure? ==> r.error == missing
  {
    if Falsy(cell) then Failure(missing) else Success(cell.value)
  }

  function ValidateName(cell: Option<string>): (r: Result<string, FieldError>)
    ensures r.Success? <==> !Falsy(cell)
    ensures r.Success? ==> cell == Some(r.value) && r.value != "" && r.value != "0"
    ensures r.Failure? ==> r.error == NameRequired
  {
    RequireTruthy(cell, NameRequired)
  }

  function ValidateDescription(cell: Option<string>): (r: Result<string, FieldError>)
    ensures r.Success? <==> !Falsy(cell)
    ensures r.Success? ==> cell == Some(r.value) && r.value != "" && r.value != "0"
    ensures r.Failure? ==> r.error == DescriptionRequired
  {
    RequireTruthy(cell, DescriptionRequired)
  }

  /** An image is never an error: a falsy cell and an unknown path both give no image. */
  function ValidateImage(images: map<string, Id>, cell: Option<string>): (r: Result<Option<Id>, FieldError>)
    ensures r.Success?
    ensures r.value.Some? <==> !Falsy(cell) && cell.value in images
    ensures r.value.Some? ==> r.value.value == images[cell.value]
  {
    if Falsy(cell) then Success(None)
    else if cell.value in images then Success(Some(images[cell.value]))
    else Success(None)
  }

  /** Every name is a known category. */
  predicate AllKnown(categories: map<string, Id>, names: seq<string>) {
    forall i :: 0 <= i < |names| ==> names[i] in categories
  }

  /** Looks up category names in order and stops at the first unknown one. */
  function ResolveCategories(categories: map<string, Id>, names: seq<string>): (r: Result<seq<Id>, FieldError>)
    ensures r.Success? <==> AllKnown(categories, names)
    ensures r.Success? ==>
      |r.value| == |names| &&
      forall i :: 0 <= i < |names| ==> r.value[i] == categories[names[i]]
    ensures r.Failure? ==>
      exists j :: 0 <= j < |names| && names[j] !in categories && r.error == InvalidCategory(names[j]) &&
        forall k :: 0 <= k < j ==> names[k] in categories
  {
    if |names| == 0 then Success([])
    else if names[0] !in categories then Failure(InvalidCategory(names[0]))
    else
      match ResolveCategories(categories, names[1..])
      case Failure(e) => Failure(e)
      case Success(ids) => Success([categories[names[0]]] + ids)
  }

  /** Splits the cell on commas without trimming and resolves every piece. */
  function ValidateCategories(categories: map<string, Id>, cell: Option<string>): (r: Result<seq<Id>, FieldError>)
    ensures Falsy(cell) ==> r == Failure(CategoriesRequired)
    ensures r.Success? <==> !Falsy(cell) && AllKnown(categories, Explode(cell.value))
    ensures r.Success? ==>
      |r.value| == |Explode(cell.value)| &&
      forall i :: 0 <= i < |r.value| ==> r.value[i] == categories[Explode(cell.value)[i]]
    ensures !Falsy(cell) && r.Failure? ==>
      var pieces := Explode(cell.value);
      exists j :: 0 <= j < |pieces| && pieces[j] !in categories && r.error == InvalidCategory(pieces[j]) &&
        forall k :: 0 <= k < j ==> pieces[k] in categories
  {
    if Falsy(cell) then Failure(CategoriesRequired)
    else
      ResolveCategories(categories, Explode(cell.value))
  }

  function ValidateBrand(brands: map<string, Id>, cell: Option<string>): (r: Result<Id, FieldError>)
    ensures Falsy(cell) ==> r == Failure(BrandRequired)
    ensures !Falsy(cell) && cell.value !in brands ==> r == Failure(InvalidBrand(cell.value))
    ensures r.Success? <==> !Falsy(cell) && cell.value in brands
    ensures r.Success? ==> r.value == brands[cell.value]
  {
    if Falsy(cell) then Failure(BrandRequired)
    else if cell.value !in brands then Failure(InvalidBrand(cell.value))
    else Success(brands[cell.value])
  }

  predicate IsDigit(c: char) {
    '0' <= c <= '9'
  }

  /** The pattern `PROD-\d{3,4}` matches starting at offset `i` of `s`.
      Four digits are allowed but three are enough for a match, so only
      three are required. */
  predicate SkuPatternAt(s: string, i: int) {
    0 <= i && i + 8 <= |s| && s[i..i + 5] == "PROD-" &&
    IsDigit(s[i + 5]) && IsDigit(s[i + 6]) && IsDigit(s[i + 7])
  }

  /** The unanchored regular expression `/PROD-\d{3,4}/` finds a match anywhere in `s`. */
  ghost predicate ContainsSkuPattern(s: string) {
    exists i :: SkuPatternAt(s, i)
  }

  /** The leftmost offset at or after `from` where the SKU pattern matches. */
  function FindSkuPattern(s: string, from: nat): (r: Option<nat>)
    requires from <= |s|
    ensures r.Some? ==>
      from <= r.value && SkuPatternAt(s, r.value) &&
      forall j :: from <= j < r.value ==> !SkuPatternAt(s, j)
    ensures r.None? ==> forall j :: from <= j ==> !SkuPatternAt(s, j)
    decreases |s| - from
  {
    if from + 8 > |s| then None
    else if SkuPatternAt(s, from) then Some(from)
    else FindSkuPattern(s, from + 1)
  }

  /** A SKU is any truthy cell in which the pattern occurs somewhere; it is kept unchanged. */
  function ValidateSku(cell: Option<string>): (r: Result<string, FieldError>)
    ensures Falsy(cell) ==> r == Failure(SkuRequired)
    ensures r.Success? <==> !Falsy(cell) && ContainsSkuPattern(cell.value)
    ensures r.Success? ==> cell == Some(r.value)
    ensures !Falsy(cell) && r.Failure? ==> r.error == InvalidSkuFormat
  {
    if Falsy(cell) then Failure(SkuRequired)
    else if FindSkuPattern(cell.value, 0).None? then Failure(InvalidSkuFormat)
    else Success(cell.value)
  }

  /** A truthy price must read as a non-negative number; a falsy one (including `"0"`) means no price. */
  function ValidatePrice(numeric: string -> Option<real>, cell: Option<string>): (r: Result<Option<real>, FieldError>)
    ensures Falsy(cell) ==> r == Success(None)
    ensures !Falsy(cell) ==>
      (r.Success? <==> numeric(cell.value).Some? && numeric(cell.value).value >= 0.0)
    ensures r.Failure? ==> r.error == InvalidPrice
    ensures !Falsy(cell) && r.Success? ==> r.value == numeric(cell.value)
    ensures r.Success? && r.value.Some? ==>
      !Falsy(cell) && numeric(cell.value) == r.value && r.value.value >= 0.0
  {
    if Falsy(cell) then Success(None)
    else
      match numeric(cell.value)
      case None => Failure(InvalidPrice)
      case Some(v) => if v < 0.0 then Failure(InvalidPrice) else Success(Some(v))
  }

  /** A truthy stock must read as a non-negative number, which is then
      truncated to an integer (so `"2.9"` gives 2); a falsy one means no stock. */
  function ValidateStock(numeric: string -> Option<real>, cell: Option<string>): (r: Result<Option<int>, FieldError>)
    ensures Falsy(cell) ==> r == Success(None)
    ensures !Falsy(cell) ==>
      (r.Success? <==> numeric(cell.value).Some? && numeric(cell.value).value >= 0.0)
    ensures r.Failure? ==> r.error == InvalidStock
    ensures !Falsy(cell) && r.Success? ==> r.value.Some?
    ensures r.Success? && r.value.Some? ==>
      !Falsy(cell) && numeric(cell.value).Some? &&
      0 <= r.value.value &&
      r.value.value as real <= numeric(cell.value).value < r.value.value as real + 1.0
  {
    if Falsy(cell) then Success(None)
    else
      match numeric(cell.value)
      case None => Failure(InvalidStock)
      case Some(v) => if v < 0.0 then Failure(InvalidStock) else Success(Some(v.Floor))
  }

  /** The status must be exactly `active` or `inactive`. */
  function ValidateStatus(cell: Option<string>): (r: Result<string, FieldError>)
    ensures Falsy(cell) ==> r == Failure(StatusRequired)
    ensures r.Success? <==> cell == Some("active") || cell == Some("inactive")
    ensures r.Success? ==> cell == Some(r.value)
    ensures !Falsy(cell) && r.Failure? ==> r.error == InvalidStatus(cell.value)
  {
    if Falsy(cell) then Failure(StatusRequired)
    else if cell.value != "active" && cell.value != "inactive" then Failure(InvalidStatus(cell.value))
    else Success(cell.value)
  }
}

=== FILE: wrappers.dfy ===
/** The two result shapes of the model: `Option` stands for PHP's nullable
    values, `Result` for a value or the exception thrown in its place. */
module Wrappers {

  /** A nullable value: `None` is PHP's `null`. */
  datatype Option<+T> = None | Some(value: T)

  /** The value a call returns, or the error it throws. */
  datatype Result<+T, +E> = Success(value: T) | Failure(error: E)
  {
    /** The same outcome with the success value passed through `f`; an error
        is kept as it is. */
    function MapValue<U>(f: T -> U): (r: Result<U, E>)
      ensures r.Success? <==> Success?
      ensures Success? ==> r.value == f(value)
      ensures Failure? ==> r.error == error
    {
      match this
      case Success(v) => Success(f(v))
      case Failure(e) => Failure(e)
    }
  }
}
